=== FILE: README.md ===
# sublime firmware core in Dafny

A Dafny model of the control firmware of the *sublime* FPGA wavetable
synthesizer. It covers four parts, each as immutable state plus pure step
functions:
- the MIDI byte-stream parser and event dispatcher;
- the ADSR amplitude envelope;
- the software timer multiplexer on the OpenRISC tick timer;
- the voice allocator with its register output glue.

It also covers the integer parts of the older driver copy.

| file | module | models |
|---|---|---|
| `c_int.dfy` | `CInt`, `Bits`, `Wrappers` | C integer widths, C's truncating `/` and `%`, `int8_t` and `uint32_t` wrap-around, bitwise AND/OR/shifts on naturals, `Option` |
| `midi.dfy` | `Midi` | `sw/drivers/midi.c`, `sw/drivers/midi.h` |
| `envelope.dfy` | `Envelope` | `sw/synth/envelope.c` |
| `timer.dfy` | `Timer` | `sw/timer.c` |
| `pitch.dfy` | `Pitch` | `sublime_get_freq` (identical in both driver copies) and the store loops of `gen_note_table` |
| `synth.dfy` | `Synth` | `sw/synth/sublime.c`, `sw/synth/sublime.h` |
| `legacy.dfy` | `Legacy` | the older `sw/sublime.c`: `gen_square`, `gen_triangle`, `sublime_init` |

Hardware and function-pointer edges are abstracted as follows:
- **Register writes.** These are a log of `(offset, value)` pairs.
- **The tick-timer counter.** The time it has run is a parameter (`elapsed`). The TTMR register is reduced to its period field and `ticktimer_running`.
- **Timer callbacks.** Each is an optional "start my own slot again for d µs" (`Timer.Restart`), the only thing the envelope callback does. The restart carries the counter reading it sees, since `timer_start` adds it while `ticktimer_running` is set, and the interrupt clears that flag only after its loop.
- **MIDI callbacks.** The dispatcher does not call them. Its result is the list of invocations it makes: table index, callback, key, velocity and context.
- **Envelope operations.** Each returns the new envelope together with the one-shot delay it asks its timer for.
- **Pitch tables.** The note and cent tables are computed with `pow` on doubles, so they are parameters.

Where the code departs from its own headers, comments or evident intent, the model follows the code:
- **Timer start while the tick timer runs.** `timer_start` only shortens the programmed period when the new deadline is earlier than the current period. It never lengthens it. After a start, the hardware period is therefore at most the least remaining time, not equal to it. `Timer.Start` and the invariant `Timer.Inv` say "at most".
- **Voice and oscillator fields.** `sw/synth/sublime.c` uses `amp_env`, `osc[i].detune_notes`, `osc[i].detune_cents` and `pitchwheel`, which `sw/synth/sublime.h:21-44` does not declare. The model uses the fields as the `.c` file uses them.
- **Oscillator detune width.** No header declares the oscillator's `detune_notes`/`detune_cents` (`struct osc`, `sw/synth/sublime.h:21-24`, declares only `enable` and `int8_t cents`), so `Synth.Osc` assumes they are `int8_t`, like the declared `cents`. `Synth.SmallBendInRange`, and through it `Synth.PitchWheel`'s range clause, depend on that width.
- **Older copy's voices.** The older `struct voice` (`sw/sublime.c:14-18`) holds only note, cents and velocity, and `sw/sublime.h` declares no `struct sublime`, yet the older `init` reads `active` and `osc`. `Legacy.InitVoices` therefore works on the synthesizer copy's `Synth.Voice`.
- **MIDI callback argument.** `sw/drivers/midi.c:31-32` stores into `midi.note` and `midi.velocity`, which do not match `struct midi` (`sw/drivers/midi.h:43-51`). The synthesizer reads `midi->note.key` and `midi->note.velocity`. The model delivers key, velocity and the entry's context as the receiver expects.
- **Header promise on tick spacing.** The envelope's header promises at least 1 ms between ticks. The code allows less, and `Envelope.StepWaitCanBeBelowOneMillisecond` exhibits 900 µs.

## Model

| member | source | states |
|---|---|---|
| Midi.IsStatusByte | sw/drivers/midi.h:12 | masking with 0x80 is nonzero exactly for bytes 0x80..0xFF |
| Midi.IsRealtime | sw/drivers/midi.h:13 | `(b & 0xF8) == 0xF8` holds exactly for the real-time bytes 0xF8..0xFF, so the parser's real-time test is subsumed by `b > 0xF3` |
| Midi.GetChan | sw/drivers/midi.h:53-56 | the "channel" is the upper nibble of the status byte (the message type), always below 16 |
| Midi.MessageType | sw/drivers/midi.c:60 | `status & 0xF0` is the status with its low nibble removed |
| Midi.NoteOffStatus | sw/drivers/midi.c:64 | the rewritten status is NOTE_OFF plus the original low nibble, and its message type is NOTE_OFF |
| Midi.ReceiveByte | sw/drivers/midi.c:92-121 | a status byte becomes the running status, resets the position to 1 and aborts a partial message, completing a one-byte message exactly when above 0xF3; a data byte lands at the write position and completes the message on the first data byte for 0xC0..0xDF and 0xF3 and on the second otherwise; the position never exceeds 2, so writes stay within data[0..2]; completion resets the position to 1 and keeps the running status, which becomes byte 0 of the message |
| Midi.Feed | sw/drivers/midi.c:92-121 | driving the parser with a byte sequence yields at most one message per byte and keeps the position within 0..2 |
| Midi.RunningStatusPairs | sw/drivers/midi.c:100-120 | under a two-data-byte running status at position 1, every pair of data bytes completes exactly one three-byte message with that status, and the parser returns to position 1 with the status kept |
| Midi.StatusThenPairs | sw/drivers/midi.c:100-120 | a two-data-byte status followed by k data pairs yields exactly those k messages, whatever partial message was pending |
| Midi.RealtimeReplacesRunningStatus | sw/drivers/midi.c:101-105 | a real-time byte in the middle of a note message replaces the running status: the interrupted note is never dispatched and the following data bytes are framed under the real-time status |
| Midi.NoteFanOut | sw/drivers/midi.c:21-37 | every invocation is of a non-null entry listening on the channel or on 0xFF, made in registration order with each entry at most once, and passes key, velocity and that entry's context |
| Midi.NoteFanOutCovers | sw/drivers/midi.c:27-35 | no listening entry is skipped: each one is invoked |
| Midi.PitchFanOut | sw/drivers/midi.c:49-53 | every invocation is of a listening entry, in table order, and carries the decoded wheel value |
| Midi.PitchFanOutCovers | sw/drivers/midi.c:49-53 | no listening pitch-wheel entry is skipped |
| Midi.PitchValue | sw/drivers/midi.c:46 | `((high << 7) \| low) - 0x2000` is the 14-bit position re-centred on zero, within -8192..8191 and so within `int16_t` |
| Midi.PitchWheelReferencePoints | sw/drivers/midi.c:46 | the centre (0x40, 0) decodes to 0, the bottom to -8192 and the top to 8191 |
| Midi.HandleMsg | sw/drivers/midi.c:56-86 | note-on callbacks run only for a note-on with nonzero velocity; note-off callbacks run only for a note-off or a zero-velocity note-on; pitch-wheel callbacks run only for a pitch-wheel message; every note callback gets the message's key and velocity; all other message types dispatch nothing |
| Midi.NoteOnVelocityZeroIsNoteOff | sw/drivers/midi.c:62-67 | a zero-velocity note-on is handled exactly as the note-off on the same low nibble, reaching only the note-off table, and the value compared with the listen channels changes from 9 to 8 |
| Midi.NoteOnDispatch | sw/drivers/midi.c:69-71 | a note-on with nonzero velocity reaches exactly the note-on table, filtered on channel value 9 |
| Midi.NoteOffDispatch | sw/drivers/midi.c:73-76 | for any registry, a note-off reaches exactly the note-off table, filtered on channel value 8, with the key and velocity |
| Midi.PitchWheelDispatch | sw/drivers/midi.c:78-81 | for any registry, a pitch-wheel change reaches exactly the pitch-wheel table, filtered on channel value 14, with the position decoded from data bytes 2 (high) and 1 (low) |
| Midi.RunningStatusNoteOns | sw/drivers/midi.c:56-121 | one note-on status followed by k key/velocity pairs with nonzero velocities dispatches k note-on fan-outs, one per pair, with that pair's key and velocity |
| Midi.Register | sw/drivers/midi.c:123-135 | a table already holding 10 entries is left unchanged and -1 returned; otherwise the entry is appended after the existing ones and 0 returned; a table never exceeds 10 entries |
| Midi.RegisterNoteOn | sw/drivers/midi.c:123-135 | registers in the note-on table and leaves the other two tables unchanged |
| Midi.RegisterNoteOff | sw/drivers/midi.c:137-149 | registers in the note-off table and leaves the other two tables unchanged |
| Midi.RegisterPitchWheel | sw/drivers/midi.c:151-163 | registers in the pitch-wheel table and leaves the other two tables unchanged |
| Midi.RegisteredCallbackRunsLast | sw/drivers/midi.c:27-35 | a newly registered any-channel callback is invoked after all earlier entries, with its own context, and the earlier invocations are unchanged |
| Envelope.GetStep | sw/synth/envelope.c:20-33 | the step is 1..255; it is 1 for unit waits of at least 1 ms and 255 for a zero wait; otherwise it is the largest step, capped at 255, whose total wait stays within 1000 µs |
| Envelope.ScaledWait | sw/synth/envelope.c:48-49 | the scheduled wait never wraps: it equals the unit wait from 1 ms up and is at most 1000 µs below that |
| Envelope.StepWaitCanBeBelowOneMillisecond | sw/synth/envelope.c:1-33 | contrary to the file header, a unit wait of 300 µs schedules ticks only 900 µs apart |
| Envelope.DoRelease | sw/synth/envelope.c:35-59 | at level 0 the envelope goes idle with no timer started; otherwise the level strictly falls by one step, saturating at 0, with unit wait `release / release_output`; only the level and step change, so the release level is kept |
| Envelope.DoDecay | sw/synth/envelope.c:61-84 | the current level becomes the release level; with the gate off this is a release step; at the sustain level it holds with no timer; otherwise the level falls by one step but never below sustain, with unit wait `decay / (255 - sustain)` |
| Envelope.DoAttack | sw/synth/envelope.c:86-110 | the current level becomes the release level; with the gate off this is a release step; at full level it runs the decay step at once; otherwise the level strictly rises by one step, saturating at 255, with unit wait `attack / 256` |
| Envelope.TimerIsr | sw/synth/envelope.c:112-134 | attack, decay and release ticks run their phase step and adopt the phase it returns; sustain and idle ticks change nothing; a tick never changes the gate or the configured durations and sustain level |
| Envelope.GateOn | sw/synth/envelope.c:141-150 | from any phase: gate set, attack from level 0, first tick scheduled one attack step ahead, and the envelope is active |
| Envelope.GateOff | sw/synth/envelope.c:152-158 | the gate is always cleared; only a sustaining envelope starts its release at once; any other phase is otherwise unchanged and sees the gate on its next tick |
| Envelope.Init | sw/synth/envelope.c:160-164 | a fresh envelope is ungated, idle and silent with the given durations and sustain level |
| Envelope.ValidTickDefined | sw/synth/envelope.c:35-84 | under the envelope invariant, the divisors of the next tick and of a gate-off are nonzero |
| Envelope.InitValid | sw/synth/envelope.c:160-164 | a fresh envelope satisfies the envelope invariant and is not active |
| Envelope.TimerIsrPreservesValid | sw/synth/envelope.c:112-134 | a tick preserves the envelope invariant: idle is silent and ungated, release is ungated and below its release level, sustain sits on the sustain level, and decay is not below it |
| Envelope.GateOnPreservesValid | sw/synth/envelope.c:141-150 | gate-on preserves the envelope invariant |
| Envelope.GateOffPreservesValid | sw/synth/envelope.c:152-158 | gate-off preserves the envelope invariant and never leaves the envelope in sustain |
| Envelope.TimerIsrSchedulesWhileTimed | sw/synth/envelope.c:112-134 | a tick starts the timer again exactly when the envelope stays in attack, decay or release |
| Envelope.Run | sw/synth/envelope.c:112-134 | any number of ticks without gate events preserves the invariant, the gate and the sustain level |
| Envelope.ReleaseReachesIdle | sw/synth/envelope.c:35-59 | a release reaches idle and silence within one tick more than its level |
| Envelope.GateOffReachesIdle | sw/synth/envelope.c:35-158 | once the gate is off, 256 ticks bring any envelope to idle |
| Envelope.DecayReachesSustain | sw/synth/envelope.c:61-84 | a gated decay reaches the sustain level and holds it |
| Envelope.AttackReachesSustain | sw/synth/envelope.c:86-110 | a gated attack passes full level and settles on the sustain level |
| Envelope.GateOnReachesSustain | sw/synth/envelope.c:61-150 | from a gate-on, 512 ticks with the gate held end on the sustain level |
| Timer.Clamp | sw/timer.c:33-43 | the programmed time is the request, or `TMR_MAX_US` when the request is larger |
| Timer.Ticks | sw/timer.c:40-42 | the TTMR period is the clamped time at 50 ticks per µs and fits the 28-bit period field |
| Timer.PeriodRoundTrip | sw/timer.c:33-53 | reading the period back returns the clamped time that was programmed |
| Timer.FirstFree | sw/timer.c:125-132 | the result is the least slot at or after the start that is not ACTIVE, or none exactly when all such slots are ACTIVE |
| Timer.Alloc | sw/timer.c:120-136 | the first non-ACTIVE slot gets flags exactly ACTIVE plus the callback and context, and no other slot changes; with all 128 slots taken nothing changes and no timer is returned |
| Timer.Start | sw/timer.c:138-159 | the slot's time and reload time become d, it is RUNNING, and no other slot changes; with the tick timer idle the period is d (clamped); with it running the deadline is `d + elapsed` (32-bit) and the period is shortened only when that deadline is earlier |
| Timer.Init | sw/timer.c:161-172 | every slot's flags are cleared and nothing else changes |
| Timer.Expire | sw/timer.c:55-61 | a continuous timer reloads its start time and stays running; a one-shot timer stops |
| Timer.Visit | sw/timer.c:82-103 | a slot that is not armed is skipped; an armed slot not yet due only loses the elapsed time; a due slot with no callback, or whose callback does not restart it, expires; a due slot restarted by its callback is armed again with the delay as its reload time, and with a deadline of the delay plus the counter reading since the interrupt's reset, wrapping at 32 bits (sw/timer.c:150), when `ticktimer_running` is set, or of the delay alone when the start finds it clear; the ACTIVE flag, callback, mode and context never change |
| Timer.Serve | sw/timer.c:83-91 | one armed slot's turn changes only that slot, as `Visit` describes for the current `ticktimer_running`, reports a callback run exactly when the slot fires, and leaves `ticktimer_running` set exactly when it was set or the slot restarted |
| Timer.TimeoutSlot | sw/timer.c:55-64 | a callback's restart of its own slot changes only that slot, as `Visit` describes, and sets `ticktimer_running` exactly when it was set or the slot restarts |
| Timer.ScanPool | sw/timer.c:82-104 | the scan leaves the already-visited slots alone and turns each later slot into its `Visit` result, each restart seeing `ticktimer_running` as set before the scan or by an earlier restart; the scan ends with it set exactly when it began set or some slot restarted |
| Timer.ScanFired | sw/timer.c:90-91 | the callbacks that run are exactly those of the slots that expire and have a callback, in slot order |
| Timer.ScanFiredIs | sw/timer.c:82-91 | the callbacks the scan from a slot runs are exactly the reference list `FiredFrom` of the slots from there on that are armed, due and have a callback, in slot order |
| Timer.IsrVisitsEachSlot | sw/timer.c:73-104 | whatever value the minimum search starts from, so for the interrupt as written too, the interrupt's effect on the pool is the per-slot `Visit`, every restart adding its counter reading when the tick timer was marked running, and the callbacks that run are exactly those of the expiring slots, in ascending slot order |
| Timer.RestartNearLimitWraps | sw/timer.c:148-150 | while the tick timer runs, a restart whose delay plus counter reading passes 32 bits gets a deadline shorter than the counter reading itself |
| Timer.ScanMinimum | sw/timer.c:98-102 | for a search starting from any value: the scan ends naming an armed slot with the least remaining time, which is below the starting value, or names none and every armed slot has at least the starting value left |
| Timer.IsrProgramsMinimum | sw/timer.c:105-113 | (corrected search, starting above every 32-bit time) after the interrupt the tick timer is programmed for the least remaining time among the armed slots, counting self-restarts; with none armed it is disarmed and marked idle |
| Timer.IsrAsWrittenProgramsMinimum | sw/timer.c:78-113 | (search as written, from `0xffffffff`) the tick timer is programmed for the least remaining time whenever some armed slot has less than `0xffffffff` left; when every armed slot has exactly `0xffffffff` left it is disarmed and marked idle |
| Timer.ScanSentinels | sw/timer.c:98-102 | starting the search at `0xffffffff` or just above it makes the same choices unless a slot left armed has exactly `0xffffffff` to go |
| Timer.IsrAsWrittenAgrees | sw/timer.c:73-114 | the interrupt as written and the corrected one give the same pool, tick timer and callbacks on every input that leaves no slot armed with exactly `0xffffffff` to go |
| Timer.InitEstablishesInv | sw/timer.c:161-172 | after initialisation no slot is armed, so the multiplexing invariant holds |
| Timer.AllocPreservesInv | sw/timer.c:120-136 | allocation preserves the invariant that the tick timer runs with a period no longer than any armed slot's remaining time |
| Timer.StartPreservesInv | sw/timer.c:138-159 | starting a timer preserves the multiplexing invariant |
| Timer.IsrPreservesInv | sw/timer.c:73-114 | with the minimum search corrected, the interrupt preserves the multiplexing invariant |
| Timer.IsrAsWrittenDropsLongestRestart | sw/timer.c:73-114 | as written, a lone one-shot slot whose callback, with the counter at c µs, restarts it for 0xFFFFFFFF − c µs (deadline exactly 0xFFFFFFFF) stays armed while the interrupt disarms the tick timer, so the invariant breaks, for every c |
| Timer.IsrKeepsLongestRestart | sw/timer.c:98-113 | with the search starting above every 32-bit time, the same interrupt programs the longest period and keeps the invariant, for every counter reading c |
| Pitch.SplitCents | sw/synth/sublime.c:121-127 | the C-truncating normalisation preserves `100 * carry + cents` and leaves cents in 0..100: below 100 when they were above it, above 0 when they were negative |
| Pitch.NormalNote | sw/synth/sublime.c:121-130 | the normalised note is the note plus the carry when that lies in 0..127; a negative result is raised to 0; the `int8_t` addition wraps |
| Pitch.Lookup | sw/synth/sublime.c:121-133 | both table indices are in bounds; for a pitch in notes 0..127 they denote exactly the requested pitch `100 * note + cents`; a pitch below note 0 reads note table entry 1 |
| Pitch.GetFreq | sw/synth/sublime.c:113-136 | the result is the product of the two table entries divided by 2^16 and truncated to 32 bits |
| Pitch.GetFreqScalesDown | sw/synth/sublime.c:132-135 | with cent factors at most 1.0, the 32-bit truncation loses nothing and the result never exceeds the note's own increment |
| Pitch.LookupInRange | sw/synth/sublime.c:121-133 | a note and cents already in range are looked up unchanged |
| Pitch.LookupBorrows | sw/synth/sublime.c:124-126 | negative cents borrow from the note: one cent below note 60 reads as 99 cents above note 59 |
| Pitch.LookupEdgeQuirks | sw/synth/sublime.c:121-130 | cents that carry past note 127 wrap the note to -128, which is raised to note 0; a pitch exactly on note 0 reached from above (note 1 less 100 cents) reads as note 1 |
| Pitch.NoteTable | sw/synth/sublime.c:92-93 | entries below the count receive the computed increments and the rest keep the zero of a static array |
| Pitch.FullNoteTable | sw/synth/sublime.c:92-93 | storing `i <= 128` fills all 129 entries with the computed increments |
| Pitch.LegacyNoteTable | sw/sublime.c:87-88 | the older loop `i < 128` stores the computed increments into entries 0..127 only |
| Pitch.LegacyNoteTableSilencesTopNote | sw/sublime.c:87-133 | with the older table, pitches from note 127 up to note 128 read the unwritten entry 128 and yield increment 0 |
| Pitch.LegacyNoteTableElsewhere | sw/sublime.c:87-133 | every pitch that does not read entry 128 gets the same increment from both tables |
| Pitch.FullNoteTableSoundsEveryPitch | sw/synth/sublime.c:92-135 | with all entries stored, and table values like the generated ones, every pitch yields a nonzero increment |
| Synth.VoiceReg | sw/synth/sublime.h:11 | `((voice & 0x7f) << 4) \| reg` is `16 * (voice mod 128) + reg`, below the global registers at 0x800 |
| Synth.VoiceRegInjective | sw/synth/sublime.h:6-11 | distinct (voice, register) pairs of the 128-voice pool have distinct addresses |
| Synth.AddressMapDisjoint | sw/synth/sublime.h:3-19 | voice blocks, the global registers and the two 8192-word wavetables do not overlap |
| Synth.ToUs | sw/synth/sublime.c:22-33 | durations are whole milliseconds up to 16 s; 0 exactly for 0; 16 s from 127 on; 1 ms steps up to 10 |
| Synth.ToUsShape | sw/synth/sublime.c:22-33 | increasing within each piece, strictly below 127, but not overall: 100 maps to 900 ms and 101 to 500 ms |
| Synth.GetFreeVoice | sw/synth/sublime.c:147-155 | the least inactive voice below `num_voices`, or -1 exactly when all of them are active |
| Synth.GetVoiceByNote | sw/synth/sublime.c:157-166 | the least voice below `num_voices` whose gate is on and that plays the note, or -1 exactly when there is none |
| Synth.NoteOn | sw/synth/sublime.c:171-184 | with no free voice nothing changes and no timer starts; otherwise exactly the first free voice takes key and velocity, becomes active and is gated on, and its timer starts with the first attack delay |
| Synth.NoteOff | sw/synth/sublime.c:186-198 | with no voice holding the key nothing changes; otherwise exactly the first such voice gets the release velocity when it is nonzero and is gated off, and a timer starts only when the release begins at once |
| Synth.BendCents | sw/synth/sublime.c:204 | the bend is `200 * pw / 8192` truncated toward zero: the largest whole number of cents not beyond the exact value, on the side of zero |
| Synth.PitchWheel | sw/synth/sublime.c:200-205 | the wheel changes only the bend; a wheel position in -8192..8191 gives a bend within -200..199 cents; every bend it sets keeps each oscillator's offset within the range `sublime_get_freq` handles |
| Synth.SmallBendInRange | sw/synth/sublime.c:222-228 | a bend of at most 800 cents either way, plus the `int8_t` note and cent detunes, keeps every oscillator's offset within `int32_t` with room for the lowering by 100 |
| Synth.BendCentsShape | sw/synth/sublime.c:204 | the scaling is monotone and odd-symmetric about the centre |
| Synth.BendCentsReferencePoints | sw/synth/sublime.c:204 | full down bends -200 cents, full up 199, and 41 wheel units make one cent |
| Synth.Amplitude | sw/synth/sublime.c:216 | `velocity * output / 256` is at most 254, is the floor of the product over 256, and is at most 126 for MIDI velocities |
| Synth.ControlWord | sw/synth/sublime.c:218-220 | `amp << 8 \| en1 << 1 \| en0` equals `256 * amp + 2 * en1 + en0` |
| Synth.ControlWordRoundTrip | sw/synth/sublime.c:218-220 | the amplitude and both enables are recovered from the control word |
| Synth.WriteVoice | sw/synth/sublime.c:207-229 | a voice stays active exactly when it was and its envelope is not idle, and nothing else changes; the control word, then oscillator 0 and oscillator 1 frequencies are written to that voice's registers, each at the note offset by the bend and the oscillator's own detune |
| Synth.TaskFrom | sw/synth/sublime.c:231-236 | writing the voices from `i` on emits three writes per voice and changes only the active flags of those voices |
| Synth.Task | sw/synth/sublime.c:231-236 | a pass writes three registers per voice in use; afterwards a voice is active exactly when it was and its envelope is sounding; no envelope changes |
| Synth.VoiceWritesLocal | sw/synth/sublime.c:207-229 | the writes for voices from `i` on depend only on those voices and the bend, not on the other voices |
| Synth.TaskFromWrites | sw/synth/sublime.c:231-236 | a pass from voice `i` on emits exactly each voice's three writes, in voice order, as computed from the state before the pass, although the pass updates active flags as it goes |
| Synth.TaskWrites | sw/synth/sublime.c:231-236 | the writes of a whole pass are each voice's control word and two frequencies, voice 0 first |
| Synth.VoiceCount | sw/synth/sublime.c:247 | `config & 0x7f` is the configuration value mod 128, below the pool size |
| Synth.ResetVoice | sw/synth/sublime.c:251-258 | a reset voice is inactive with both oscillators enabled, its gate cleared and the default durations and sustain level set; the envelope's phase and level are not reset |
| Synth.InitVoices | sw/synth/sublime.c:250-259 | exactly the voices in use are reset; each timer a voice receives is a slot set up for that voice's envelope (ACTIVE, not running, the envelope callback, the voice as context); slots already taken and the tick timer are untouched |
| Synth.InitVoicesAllocatesInOrder | sw/synth/envelope.c:160-164 | on a pool whose free slots start at the current voice, each voice k gets timer k and only those slots change |
| Synth.InitAllocatesTimerPerVoice | sw/synth/sublime.c:250-259 | started on a pool fresh from `timer_init`, voice k's envelope gets timer k, set up with the envelope's callback and k as context |
| Synth.ResetWrites | sw/synth/sublime.c:262-263 | `4 * num_voices` zero writes at consecutive word offsets from 0 |
| Synth.ResetCoversVoiceRegisters | sw/synth/sublime.c:262-263 | the reset clears all four registers of every voice in use |
| Synth.ResetOnlyVoiceRegisters | sw/synth/sublime.c:262-263 | the reset writes nothing but registers of the voices in use |
| Synth.Init | sw/synth/sublime.c:238-281 | the voice count comes from the configuration register; the voices in use are reset, each envelope timer a slot set up for its voice; their registers are cleared, then sync is asserted and deasserted; the three callbacks are registered on every channel with the synthesizer as context |
| Synth.BootRoutesNoteOn | sw/synth/sublime.c:278 | after start-up on an empty registry, a note-on with nonzero velocity on any channel makes exactly one call, to the note-on callback with the synthesizer's context, key and velocity |
| Synth.BootRoutesNoteOff | sw/synth/sublime.c:279 | after start-up on an empty registry, a note-off or a zero-velocity note-on makes exactly one call, to the note-off callback with the key |
| Synth.BootRoutesPitchWheel | sw/synth/sublime.c:280 | after start-up on an empty registry, a pitch-wheel change makes exactly one call, to the pitch-wheel callback with the re-centred position |
| Synth.InitValid | sw/synth/sublime.c:238-281 | a zero-initialised synthesizer satisfies the allocator invariant after init: every envelope in use is valid and every inactive voice is idle |
| Synth.NoteOnTakesSilentVoice | sw/synth/sublime.c:171-184 | a note-on only takes a voice whose envelope is idle, and it preserves the allocator invariant |
| Synth.NoteOffPreservesValid | sw/synth/sublime.c:186-198 | a note-off's gate-off is defined and preserves the allocator invariant |
| Synth.TaskPreservesValid | sw/synth/sublime.c:231-236 | an output pass preserves the allocator invariant |
| Synth.EnvelopeTick | sw/synth/envelope.c:112-134 | a timer tick of one voice's envelope changes only that envelope, preserves the allocator invariant, and does nothing for an inactive voice |
| Synth.NoteOffFindsNoteOn | sw/synth/sublime.c:157-198 | a note-off finds the voice the matching note-on took, when no lower voice already held that key |
| Synth.NoteOnDropsWhenFull | sw/synth/sublime.c:176-178 | with every voice in use busy, a note-on changes nothing and starts no timer |
| Legacy.GenSquare | sw/sublime.c:56-65 | the first 4096 words are `INT_MAX - 1` and the last 4096 are its negation |
| Legacy.SquareHalfWaveSymmetric | sw/sublime.c:56-65 | the second half of the square wave is the first half negated |
| Legacy.RampFits | sw/sublime.c:34-44 | every product `i * (INT_MAX / 2048)` and every ramp value lies within `int32_t`, so no step overflows |
| Legacy.TriangleAt | sw/sublime.c:30-45 | every triangle value lies within -INT_MAX..INT_MAX |
| Legacy.GenTriangle | sw/sublime.c:30-45 | the four loops write 8192 words: quarter q, word i holds the triangle at position 2048 q + i |
| Legacy.TriangleHalfWaveSymmetric | sw/sublime.c:30-45 | the second half of the triangle is the first half negated |
| Legacy.TriangleSlopes | sw/sublime.c:34-38 | within each of the first two quarters consecutive words differ by TRI_STEP (up in the first, down in the second); word 0 is 0, the peak INT_MAX is word 2048, and the step into the peak is INT_MAX - 2047 TRI_STEP, larger than TRI_STEP |
| Legacy.InitVoices | sw/sublime.c:162-165 | voices below `num_voices` become inactive with oscillator 0 enabled; nothing else changes |
| Legacy.ResetWritesAsWritten | sw/sublime.c:168-169 | as written, the reset adds the base address twice, so every write lands at `SUBLIME_BASE` or more from the core |
| Legacy.ResetMissesVoiceRegisters | sw/sublime.c:168-169 | as written, no voice register is cleared: every reset write lands beyond both wavetables |
| Legacy.Init | sw/sublime.c:151-183 | the voices in use are reset; then, as written, 4n zero writes land at `SUBLIME_BASE + 4k` from the core; then sync is asserted and deasserted on `MAIN_CTRL`; the wavetable fills between reset and sync go through raw pointers and are not in this log |
| Legacy.InitMissesVoiceRegisters | sw/sublime.c:168-169 | as written, the older start-up writes no voice register at all |

## Left out

- Register I/O, `sublime_read_reg`/`read_left`, `or1k_mtspr`/`mfspr`: writes are a log and reads are parameters (the configuration word, the tick-timer counter).
- `gen_note_table`/`gen_cent_table` arithmetic: computed with `pow` on doubles; the tables are parameters, and only which entries the store loops fill is modelled.
- `gen_saw` (both copies) and the synthesizer copy's `gen_triangle`/`gen_square`: they only fill hardware memory that nothing in the firmware reads back; the older `gen_saw` overflows `int32_t` past word 4096 and is not modelled.
- `printf` diagnostics, and `timer_init`'s exception-handler registration and `SR` write: no effect on the modelled state.
- `envelope_init` on its own: its gate clearing and timer allocation are modelled inside `Synth.InitVoices`, which allocates one timer per voice in use.
- Concurrency: the MIDI and timer interrupts and the output task are atomic steps; no interleaving or torn reads.
- Midi: the pitch-wheel callback's context is read from an uninitialised index (`sw/drivers/midi.c:47`), so no context is recorded for pitch-wheel invocations; control change, sysex and the other statuses dispatch nothing and are not modelled further.
- The zero-velocity rewrite: the rewritten status of a zero-velocity note-on is not written back into the parser's buffer, because the next byte overwrites byte 0 before anything reads it.
- Timer: a callback may only restart its own slot; a restart of a lower, already-scanned slot (which the interrupt would not count) is not modelled. The `mode` argument of `timer_start` is not stored by the source and is ignored here too. Since `timers` is a static array (`sw/timer.c:24`) and `TMR_ONESHOT` is 0 (`sw/timer.h:3-6`), every slot in the program is one-shot; `Timer.Init` leaves `mode` free, so the `Continuous` branch of `Timer.Expire` models code the program never reaches.
- The tick-timer counter: its readings in microseconds are parameters (`elapsed` for the interrupt and for a start outside it, the `counter` of each `Timer.Restart` for a start made by a callback inside it), so its own 32-bit wrap is not modelled, and the model does not tie the readings inside one interrupt to each other or bound them by the 32-bit TTCR at 50 ticks per µs; the double-precision conversions `us * (50e6 / 1e6)` and `TTCR / (50e6 / 1e6)` are modelled by their exact integer equivalents at 50 ticks per µs.
- Pitch.SplitCents: its requires `cents >= I32_MIN + 100` rules out the signed overflow of `cents - 100` in `sw/synth/sublime.c:125` instead of modelling it; `Synth.SmallBendInRange` and `Synth.PitchWheel` show that every offset the pitch wheel can produce meets it.
- `midi_init`, `mmiomidi`, `irq`, the I2C codec driver and `main`: device bring-up with no integer logic of the core.

## Findings

| source | as written | input that shows it | evidently intended | confidence | as-written member | corrected member |
|---|---|---|---|---|---|---|
| sw/timer.c:78, 98-102 | the least-time search starts at `0xffffffff` and selects with `<`, so a slot whose time is exactly 0xFFFFFFFF is never selected | a lone one-shot slot due in 5 µs, interrupt after 5 µs; its callback, with the counter reading c µs since the interrupt's reset, restarts it for 0xFFFFFFFF − c µs, so its deadline is exactly 0xFFFFFFFF | reload the tick timer with the least time of all running slots ("the timer that has least time left") | medium; not executed | Timer.IsrAsWrittenDropsLongestRestart | Timer.IsrKeepsLongestRestart |
| sw/sublime.c:87-88, 130 | the note table loop stores entries 0..127 while `sublime_get_freq` reads `note_table[note + 1]` up to entry 128 | note 127, cents 0: increment 0, the oscillator stops | store all 129 entries, as the synthesizer copy does (`i <= 128`) | high; not executed | Pitch.LegacyNoteTableSilencesTopNote | Pitch.FullNoteTableSoundsEveryPitch |
| sw/sublime.c:168-169 | the reset writes `SUBLIME_BASE + i * 4` through `sublime_write_reg`, which adds the base again | any voice count n >= 1: no write reaches offsets 0..16 n - 1 | clear the voice registers at offsets `i * 4`, as the synthesizer copy does | high; not executed | Legacy.ResetMissesVoiceRegisters | Synth.ResetCoversVoiceRegisters |

=== FILE: c_int.dfy ===
/*
 * Fixed-width C integers and the C operators whose meaning differs from
 * Dafny's unbounded, Euclidean arithmetic.
 */
module CInt {

  type u8 = x: int | 0 <= x < 0x100
  type u16 = x: int | 0 <= x < 0x1_0000
  type u32 = x: int | 0 <= x < 0x1_0000_0000
  type i8 = x: int | -0x80 <= x < 0x80
  type i16 = x: int | -0x8000 <= x < 0x8000
  type i32 = x: int | -0x8000_0000 <= x < 0x8000_0000

  const U32_MAX: u32 := 0xFFFF_FFFF
  const INT_MAX: i32 := 0x7FFF_FFFF

  /** C's `a / b` for a positive divisor: the quotient truncated toward zero. */
  function Quot(a: int, b: int): (q: int)
    requires b > 0
    ensures a >= 0 ==> 0 <= a - b * q < b
    ensures a < 0 ==> -b < a - b * q <= 0
  {
    if a >= 0 then a / b else -((-a) / b)
  }

  /** C's `a % b` for a positive divisor: the remainder takes the sign of `a`. */
  function Rem(a: int, b: int): (r: int)
    requires b > 0
    ensures a == b * Quot(a, b) + r
    ensures a >= 0 ==> 0 <= r < b
    ensures a < 0 ==> -b < r <= 0
  {
    a - b * Quot(a, b)
  }

  /** Conversion of an `int` to `int8_t`: two's-complement wrap-around. */
  function WrapI8(x: int): (r: i8)
    ensures (r - x) % 0x100 == 0
    ensures -0x80 <= x < 0x80 ==> r == x
  {
    (x + 0x80) % 0x100 - 0x80
  }

  /** Conversion of an `int` to `uint32_t`: reduction modulo 2^32. */
  function WrapU32(x: int): (r: u32)
    ensures (r - x) % 0x1_0000_0000 == 0
    ensures 0 <= x < 0x1_0000_0000 ==> r == x
  {
    x % 0x1_0000_0000
  }
}

/*
 * The bitwise operators the firmware applies, defined on naturals one bit at
 * a time from the least significant end, with the facts that turn the masks
 * and shifts the source uses into arithmetic.
 */
module Bits {

  function Pow2(k: nat): (r: nat)
    ensures r >= 1
  {
    if k == 0 then 1 else 2 * Pow2(k - 1)
  }

  /** `a << k` (no bits are lost on naturals). */
  function Shl(a: nat, k: nat): nat
  {
    a * Pow2(k)
  }

  /** `a >> k`. */
  function Shr(a: nat, k: nat): nat
  {
    if k == 0 then a else Shr(a / 2, k - 1)
  }

  /** A right shift by k divides by 2^k. */
  lemma {:induction false} ShrDivides(a: nat, k: nat)
    ensures Shr(a, k) == a / Pow2(k)
    decreases k
  {
    if k > 0 {
      ShrDivides(a / 2, k - 1);
      ModDouble(a, Pow2(k - 1));
    }
  }

  /** `a & b`. */
  function And(a: nat, b: nat): nat
    decreases a
  {
    if a == 0 || b == 0 then 0
    else 2 * And(a / 2, b / 2) + (if a % 2 == 1 && b % 2 == 1 then 1 else 0)
  }

  /** `a | b`. */
  function Or(a: nat, b: nat): nat
    decreases a + b
  {
    if a == 0 then b
    else if b == 0 then a
    else 2 * Or(a / 2, b / 2) + (if a % 2 == 1 || b % 2 == 1 then 1 else 0)
  }

  /** Euclidean division by a positive modulus is unique. */
  lemma DivModUnique(a: int, m: int, q: int, r: int)
    requires m > 0 && 0 <= r < m && a == m * q + r
    ensures a / m == q && a % m == r
  {
    var d := a / m - q;
    assert m * d == r - a % m by {
      assert m * d == m * (a / m) - m * q;
    }
    if d >= 1 {
      MulAtLeast(m, d);
      assert false;
    } else if d <= -1 {
      MulAtLeast(m, -d);
      assert false;
    }
  }

  lemma MulAtLeast(m: int, d: int)
    requires m > 0 && d >= 1
    ensures m * d >= m
  {
    assert m * d == m + m * (d - 1);
  }

  /** Taking the remainder by 2p peels off the lowest bit first. */
  lemma ModDouble(a: nat, p: nat)
    requires p >= 1
    ensures a % (2 * p) == 2 * ((a / 2) % p) + a % 2
    ensures a / (2 * p) == (a / 2) / p
  {
    var h := a / 2;
    var q, r := h / p, h % p;
    assert h == p * q + r;
    assert a == (2 * p) * q + (2 * r + a % 2);
    DivModUnique(a, 2 * p, q, 2 * r + a % 2);
  }

  /** Masking with k low one-bits keeps the remainder modulo 2^k. */
  lemma AndLowMask(a: nat, k: nat)
    ensures And(a, Pow2(k) - 1) == a % Pow2(k)
  {
    AndOnes(a, k, Pow2(k) - 1);
  }

  lemma {:induction false} AndOnes(a: nat, k: nat, m: nat)
    requires m + 1 == Pow2(k)
    ensures And(a, m) == a % Pow2(k)
    decreases k
  {
    if k == 0 {
      DivModUnique(a, 1, a, 0);
      assert And(a, 0) == 0 == a % Pow2(k);
    } else if a == 0 {
      DivModUnique(0, Pow2(k), 0, 0);
      assert And(0, m) == 0 == a % Pow2(k);
    } else {
      var p := Pow2(k - 1);
      assert m == 2 * (p - 1) + 1;
      DivModUnique(m, 2, p - 1, 1);
      var h, b := a / 2, a % 2;
      AndOdd(a, m);
      AndOnes(h, k - 1, p - 1);
      ModPow2Step(a, k);
    }
  }

  /** The remainder modulo 2^k is the lowest bit below the remainder of the rest modulo 2^(k-1). */
  lemma ModPow2Step(a: nat, k: nat)
    requires k >= 1
    ensures a % Pow2(k) == 2 * ((a / 2) % Pow2(k - 1)) + a % 2
  {
    ModDouble(a, Pow2(k - 1));
  }

  /** Against an odd mask the lowest bit of `a` survives. */
  lemma AndOdd(a: nat, m: nat)
    requires m % 2 == 1
    ensures And(a, m) == 2 * And(a / 2, m / 2) + a % 2
  {
    if a == 0 {
      assert And(0, m / 2) == 0;
    }
  }

  /** Masking an n-bit value with ones in bits k..n-1 clears its k low bits. */
  lemma {:induction false} AndHighMask(a: nat, n: nat, k: nat, m: nat)
    requires k <= n && a < Pow2(n) && m + Pow2(k) == Pow2(n)
    ensures And(a, m) == a - a % Pow2(k)
    decreases k
  {
    if k == 0 {
      AndLowMask(a, n);
      DivModUnique(a, Pow2(n), 0, a);
      assert And(a, m) == a - a % Pow2(k);
    } else if a == 0 {
      DivModUnique(0, Pow2(k), 0, 0);
    } else if n == k {
      DivModUnique(a, Pow2(n), 0, a);
      assert And(a, m) == a - a % Pow2(k);
    } else {
      var p, q := Pow2(k - 1), Pow2(n - 1);
      assert m == 2 * (q - p);
      DivModUnique(m, 2, q - p, 0);
      assert m != 0 by { Pow2StrictlyMonotone(k, n); }
      var h := a / 2;
      assert a == 2 * h + a % 2;
      assert h < q;
      AndHighMask(h, n - 1, k - 1, q - p);
      var low := h % p;
      assert And(h, q - p) == h - low;
      assert And(a, m) == 2 * (h - low);
      ModPow2Step(a, k);
      assert a % Pow2(k) == 2 * low + a % 2;
      assert And(a, m) == a - a % Pow2(k);
    }
  }

  lemma {:induction false} Pow2Add(i: nat, j: nat)
    ensures Pow2(i + j) == Pow2(i) * Pow2(j)
    decreases j
  {
    if j > 0 {
      Pow2Add(i, j - 1);
      assert Pow2(i + j) == 2 * Pow2(i + j - 1);
    }
  }

  lemma {:induction false} Pow2Monotone(i: nat, j: nat)
    requires i <= j
    ensures Pow2(i) <= Pow2(j)
    decreases j
  {
    if i < j {
      Pow2Monotone(i, j - 1);
    }
  }

  lemma Pow2StrictlyMonotone(i: nat, j: nat)
    requires i < j
    ensures Pow2(i) < Pow2(j)
  {
    Pow2Monotone(i, j - 1);
  }

  /** ORing a value into bits that a shift has cleared is an addition. */
  lemma {:induction false} OrIntoShifted(h: nat, k: nat, y: nat)
    requires y < Pow2(k)
    ensures Or(Shl(h, k), y) == Shl(h, k) + y
    decreases k
  {
    if k == 0 || h == 0 || y == 0 {
    } else {
      var p := Pow2(k - 1);
      var lo := h * p;
      assert Shl(h, k) == 2 * lo;
      assert (2 * lo) / 2 == lo && (2 * lo) % 2 == 0;
      assert y / 2 < p;
      OrIntoShifted(h, k - 1, y / 2);
      assert Or(2 * lo, y) == 2 * Or(lo, y / 2) + y % 2;
    }
  }

  lemma {:induction false} OrCommutes(a: nat, b: nat)
    ensures Or(a, b) == Or(b, a)
    decreases a + b
  {
    if a != 0 && b != 0 {
      OrCommutes(a / 2, b / 2);
    }
  }
}

module Wrappers {

  datatype Option<+T> = None | Some(value: T)
}

=== FILE: envelope.dfy ===
/*
 * The ADSR amplitude envelope of one voice (sw/synth/envelope.c): a
 * five-phase state machine over an 8-bit output level, advanced by a
 * one-shot timer. Each operation returns the new envelope together with
 * the delay, if any, it asks the timer to wait before the next tick.
 */
module Envelope {
  import opened CInt
  import opened Wrappers

  datatype Phase = Idle | Attack | Decay | Sustain | Release

  /**
   * `struct envelope` without its timer handle. Attack, decay and release
   * are durations in microseconds; sustain, output and the level at which
   * release began are 8-bit levels.
   */
  datatype Envelope = Envelope(
    gate: bool,
    state: Phase,
    attack: u32,
    decay: u32,
    sustain: u8,
    release: u32,
    releaseOutput: u8,
    output: u8,
    step: u8)

  /** What one `do_*` helper leaves behind: the envelope, the phase it returns and the one-shot delay it starts. */
  datatype Outcome = Outcome(env: Envelope, next: Phase, wait: Option<u32>)

  /** An envelope after a tick or a gate event, with the delay started on its timer. */
  datatype Transition = Transition(env: Envelope, wait: Option<u32>)

  /** The level bound of the 8-bit output. */
  const FULL: u8 := 0xFF

  /**
   * `get_step`: how many output units one tick moves so that a tick is due
   * no sooner than about every millisecond. It is the largest step (capped
   * at 255) whose total wait does not exceed 1000 microseconds, and 1 when
   * a single unit already takes that long.
   */
  function GetStep(waitUs: u32): (s: u8)
    ensures 1 <= s
    ensures waitUs >= 1000 ==> s == 1
    ensures waitUs == 0 ==> s == FULL
    ensures 0 < waitUs < 1000 ==> s * waitUs <= 1000
    ensures 0 < waitUs < 1000 ==> s == FULL || (s + 1) * waitUs > 1000
  {
    if waitUs >= 1000 then 1
    else if waitUs == 0 then FULL
    else
      var step := 1000 / waitUs;
      assert waitUs * step <= 1000 < waitUs * (step + 1);
      if step > 0xFF then FULL else step
  }

  /**
   * `wait_us *= step` with the step `get_step` picked for that unit wait.
   * The product never wraps: it is the unit wait itself when that is at
   * least a millisecond, and at most a millisecond otherwise.
   */
  function ScaledWait(waitUs: u32): (r: u32)
    ensures r == waitUs * GetStep(waitUs)
    ensures waitUs >= 1000 ==> r == waitUs
    ensures 0 < waitUs < 1000 ==> r <= 1000
  {
    var s := GetStep(waitUs);
    assert waitUs == 0 || waitUs >= 1000 || waitUs * s <= 1000;
    waitUs * s
  }

  /** The divisions of a timer tick are defined: what the source needs from its state. */
  predicate TickDefined(e: Envelope)
  {
    && (e.state == Release ==> e.output == 0 || e.releaseOutput > 0)
    && (e.state == Decay && e.gate && e.output != e.sustain ==> e.sustain < FULL)
  }

  /** The wait for one output unit of release: the release time spread over the levels release began from. */
  function ReleaseUnit(e: Envelope): (w: u32)
    requires e.releaseOutput > 0
    ensures w <= e.release
  {
    DivAtMost(e.release, e.releaseOutput);
    e.release / e.releaseOutput
  }

  /**
   * `do_release`: at level 0 the envelope goes idle and starts no timer;
   * otherwise the level falls by one step, saturating at 0, with a unit
   * wait of `release / release_output`.
   */
  function DoRelease(e: Envelope): (r: Outcome)
    requires e.output == 0 || e.releaseOutput > 0
    ensures r.next == Idle <==> e.output == 0
    ensures r.next == Idle ==> r.env == e && r.wait == None
    ensures r.next != Idle ==> r.next == Release
    // Only the level and the step change.
    ensures r.env == e.(output := r.env.output, step := r.env.step)
    ensures r.next == Release ==>
      && r.env.step == GetStep(ReleaseUnit(e))
      && r.wait == Some(ReleaseUnit(e) * r.env.step)
      && r.env.output < e.output
      && r.env.output == (if e.output >= r.env.step then e.output - r.env.step else 0)
  {
    if e.output == 0 then Outcome(e, Idle, None)
    else
      var w := ReleaseUnit(e);
      var step := GetStep(w);
      var out := if step > e.output then 0 else e.output - step;
      Outcome(e.(step := step, output := out), Release, Some(ScaledWait(w)))
  }

  /** The wait for one output unit of decay: the decay time spread over the levels from 255 down to sustain. */
  function DecayUnit(e: Envelope): (w: u32)
    requires e.sustain < FULL
    ensures w <= e.decay
  {
    var levels := FULL - e.sustain;
    DivAtMost(e.decay, levels);
    e.decay / levels
  }

  /** Dividing by a positive count never increases a duration. */
  lemma DivAtMost(a: nat, b: nat)
    requires b >= 1
    ensures a / b <= a
  {
    var q := a / b;
    assert a == b * q + a % b;
    if q >= 1 {
      MulAtLeast(q, b);
    }
  }

  lemma MulAtLeast(q: nat, b: nat)
    requires b >= 1
    ensures b * q >= q
  {
    assert b * q == q + (b - 1) * q;
  }

  /**
   * `do_decay`: records the current level as the release level, releases if
   * the gate is off, holds at the sustain level, and otherwise falls by one
   * step, never below the sustain level, with a unit wait of
   * `decay / (255 - sustain)`.
   */
  function DoDecay(e: Envelope): (r: Outcome)
    requires e.gate && e.output != e.sustain ==> e.sustain < FULL
    ensures r.env.releaseOutput == e.output || r.next == Release
    ensures !e.gate ==> r == DoRelease(e.(releaseOutput := e.output))
    ensures e.gate && e.output == e.sustain ==>
      r.next == Sustain && r.wait == None && r.env == e.(releaseOutput := e.output)
    ensures e.gate && e.output != e.sustain ==>
      && r.next == Decay
      && r.env == e.(releaseOutput := e.output, output := r.env.output, step := r.env.step)
      && r.env.step == GetStep(DecayUnit(e))
      && r.wait == Some(DecayUnit(e) * r.env.step)
      && r.env.output == (if e.output - e.sustain >= r.env.step then e.output - r.env.step else e.sustain)
  {
    var e1 := e.(releaseOutput := e.output);
    if !e1.gate then DoRelease(e1)
    else if e1.output == e1.sustain then Outcome(e1, Sustain, None)
    else
      var w := DecayUnit(e1);
      var step := GetStep(w);
      var out := if step > e1.output - e1.sustain then e1.sustain else e1.output - step;
      Outcome(e1.(step := step, output := out), Decay, Some(ScaledWait(w)))
  }

  /**
   * `do_attack`: records the current level as the release level, releases if
   * the gate is off, moves on to decay at full level, and otherwise rises by
   * one step, saturating at 255, with a unit wait of `attack / 256`.
   */
  function DoAttack(e: Envelope): (r: Outcome)
    ensures !e.gate ==> r == DoRelease(e.(releaseOutput := e.output))
    ensures e.gate && e.output == FULL ==> r == DoDecay(e)
    ensures e.gate && e.output < FULL ==>
      && r.next == Attack
      && r.env == e.(releaseOutput := e.output, output := r.env.output, step := r.env.step)
      && r.env.step == GetStep(e.attack / 256)
      && r.wait == Some((e.attack / 256) * r.env.step)
      && r.env.output > e.output
      && r.env.output == (if FULL - e.output >= r.env.step then e.output + r.env.step else FULL)
  {
    var e1 := e.(releaseOutput := e.output);
    if !e1.gate then DoRelease(e1)
    else if e1.output == FULL then DoDecay(e1)
    else
      var w := e1.attack / 256;
      var step := GetStep(w);
      var out := if step > FULL - e1.output then FULL else e1.output + step;
      Outcome(e1.(step := step, output := out), Attack, Some(ScaledWait(w)))
  }

  /**
   * `envelope_timer_isr`: the phase helper of the current phase runs and its
   * result becomes the new phase; in sustain and idle nothing happens.
   */
  function TimerIsr(e: Envelope): (r: Transition)
    requires TickDefined(e)
    ensures e.state in {Sustain, Idle} ==> r == Transition(e, None)
    ensures e.state == Attack ==> r == Transition(DoAttack(e).env.(state := DoAttack(e).next), DoAttack(e).wait)
    ensures e.state == Decay ==> r == Transition(DoDecay(e).env.(state := DoDecay(e).next), DoDecay(e).wait)
    ensures e.state == Release ==> r == Transition(DoRelease(e).env.(state := DoRelease(e).next), DoRelease(e).wait)
    // A tick never touches the gate or the durations and levels the user set.
    ensures r.env.gate == e.gate && r.env.attack == e.attack && r.env.decay == e.decay
    ensures r.env.sustain == e.sustain && r.env.release == e.release
  {
    match e.state
    case Attack =>
      var o := DoAttack(e);
      Transition(o.env.(state := o.next), o.wait)
    case Decay =>
      var o := DoDecay(e);
      Transition(o.env.(state := o.next), o.wait)
    case Release =>
      var o := DoRelease(e);
      Transition(o.env.(state := o.next), o.wait)
    case Sustain => Transition(e, None)
    case Idle => Transition(e, None)
  }

  /** `envelope_isactive`. */
  predicate IsActive(e: Envelope)
  {
    e.state != Idle
  }

  /**
   * `envelope_gate_on`: gate set, attack from level 0, and the first tick
   * scheduled one attack step ahead, whatever phase the envelope was in.
   */
  function GateOn(e: Envelope): (r: Transition)
    ensures r.env == e.(gate := true, state := Attack, output := 0)
    ensures r.wait == Some((e.attack / 256) * GetStep(e.attack / 256))
    ensures IsActive(r.env)
  {
    Transition(e.(gate := true, state := Attack, output := 0), Some(ScaledWait(e.attack / 256)))
  }

  /**
   * `envelope_gate_off`: the gate is always cleared; only a sustaining
   * envelope starts its release at once, any other phase notices the gate
   * on its next tick.
   */
  function GateOff(e: Envelope): (r: Transition)
    requires e.state == Sustain ==> e.output == 0 || e.releaseOutput > 0
    ensures !r.env.gate
    ensures e.state != Sustain ==> r == Transition(e.(gate := false), None)
    ensures e.state == Sustain ==>
      var o := DoRelease(e.(gate := false));
      r == Transition(o.env.(state := o.next), o.wait)
  {
    var e1 := e.(gate := false);
    if e.state == Sustain then
      var o := DoRelease(e1);
      Transition(o.env.(state := o.next), o.wait)
    else
      Transition(e1, None)
  }

  /** `envelope_init` on a zero-initialised voice, with the durations and sustain level the caller sets. */
  function Init(attack: u32, decay: u32, sustain: u8, release: u32): (e: Envelope)
    ensures !e.gate && e.state == Idle && e.output == 0
    ensures e.attack == attack && e.decay == decay && e.sustain == sustain && e.release == release
  {
    Envelope(false, Idle, attack, decay, sustain, release, 0, 0, 0)
  }

  // ---------------------------------------------------------------------
  // The envelope invariant
  // ---------------------------------------------------------------------

  /**
   * What holds of every envelope the operations above produce: an idle
   * envelope is silent and ungated, a releasing one is ungated and below
   * its release level, a sustaining one sits on the sustain level, which
   * is also its release level, and a decaying one is not below it.
   */
  predicate Valid(e: Envelope)
  {
    && (e.state == Idle ==> e.output == 0 && !e.gate)
    && (e.state == Release ==> !e.gate && e.output <= e.releaseOutput)
    && (e.state == Sustain ==> e.gate && e.output == e.sustain && e.releaseOutput == e.sustain)
    && (e.state == Decay ==> e.output >= e.sustain)
  }

  /** Every division a tick or a gate-off performs has a nonzero divisor. */
  lemma ValidTickDefined(e: Envelope)
    requires Valid(e)
    ensures TickDefined(e)
    ensures e.state == Sustain ==> e.output == 0 || e.releaseOutput > 0
  {
  }

  lemma InitValid(attack: u32, decay: u32, sustain: u8, release: u32)
    ensures Valid(Init(attack, decay, sustain, release))
    ensures !IsActive(Init(attack, decay, sustain, release))
  {
  }

  lemma TimerIsrPreservesValid(e: Envelope)
    requires Valid(e)
    ensures TickDefined(e) && Valid(TimerIsr(e).env)
  {
  }

  lemma GateOnPreservesValid(e: Envelope)
    requires Valid(e)
    ensures Valid(GateOn(e).env)
  {
  }

  lemma GateOffPreservesValid(e: Envelope)
    requires Valid(e)
    ensures Valid(GateOff(e).env)
    ensures GateOff(e).env.state in {Idle, Attack, Decay, Release}
  {
  }

  /** A tick starts the timer again exactly when the envelope stays in a timed phase. */
  lemma TimerIsrSchedulesWhileTimed(e: Envelope)
    requires Valid(e)
    ensures TickDefined(e)
    ensures TimerIsr(e).wait.Some? <==> TimerIsr(e).env.state in {Attack, Decay, Release}
  {
  }

  /**
   * The header promises at least a millisecond between ticks; a unit wait
   * of 300 microseconds gives three units in 900.
   */
  lemma StepWaitCanBeBelowOneMillisecond()
    ensures GetStep(300) == 3 && ScaledWait(300) == 900
  {
  }

  // ---------------------------------------------------------------------
  // Runs of timer ticks
  // ---------------------------------------------------------------------

  /** The envelope after n timer ticks with no gate event in between. */
  function Run(e: Envelope, n: nat): (r: Envelope)
    requires Valid(e)
    ensures Valid(r)
    ensures r.gate == e.gate && r.sustain == e.sustain
    decreases n
  {
    if n == 0 then e
    else
      TimerIsrPreservesValid(e);
      Run(TimerIsr(e).env, n - 1)
  }

  lemma RunIdle(e: Envelope, n: nat)
    requires Valid(e) && e.state == Idle
    ensures Run(e, n) == e
    decreases n
  {
    if n > 0 {
      RunIdle(TimerIsr(e).env, n - 1);
    }
  }

  lemma RunSustain(e: Envelope, n: nat)
    requires Valid(e) && e.state == Sustain
    ensures Run(e, n) == e
    decreases n
  {
    if n > 0 {
      RunSustain(TimerIsr(e).env, n - 1);
    }
  }

  /** A release reaches silence: more ticks than its level leave the envelope idle. */
  lemma {:induction false} ReleaseReachesIdle(e: Envelope, n: nat)
    requires Valid(e) && e.state == Release && n > e.output
    ensures Run(e, n).state == Idle && Run(e, n).output == 0
    decreases n
  {
    var next := TimerIsr(e).env;
    if e.output == 0 {
      RunIdle(next, n - 1);
    } else {
      assert next.state == Release && next.output < e.output;
      ReleaseReachesIdle(next, n - 1);
    }
  }

  /** Once the gate is off, 256 ticks bring any envelope to rest. */
  lemma {:induction false} GateOffReachesIdle(e: Envelope, n: nat)
    requires Valid(e) && !e.gate && n >= 256
    ensures Run(e, n).state == Idle
  {
    var next := TimerIsr(e).env;
    match e.state
    case Idle =>
      RunIdle(e, n);
    case Release =>
      ReleaseReachesIdle(e, n);
    case Attack =>
      ReleaseStep(e.(releaseOutput := e.output));
      AfterReleaseStep(next, n - 1);
    case Decay =>
      ReleaseStep(e.(releaseOutput := e.output));
      AfterReleaseStep(next, n - 1);
  }

  /** A release step from a level at most 255 leaves a level at most 254, or silence. */
  lemma ReleaseStep(e: Envelope)
    requires e.output == 0 || e.releaseOutput > 0
    ensures DoRelease(e).next == Release ==> DoRelease(e).env.output < FULL
    ensures DoRelease(e).next == Idle ==> DoRelease(e).env.output == 0
  {
  }

  lemma AfterReleaseStep(e: Envelope, n: nat)
    requires Valid(e) && (e.state == Idle || (e.state == Release && e.output < FULL)) && n >= 255
    ensures Run(e, n).state == Idle
  {
    if e.state == Idle {
      RunIdle(e, n);
    } else {
      ReleaseReachesIdle(e, n);
    }
  }

  /**
   * A gated decay reaches the sustain level and holds it: one tick per
   * step down plus the tick that enters sustain.
   */
  lemma {:induction false} DecayReachesSustain(e: Envelope, n: nat)
    requires Valid(e) && e.state == Decay && e.gate && n > e.output - e.sustain
    ensures Run(e, n).state == Sustain && Run(e, n).output == e.sustain
    decreases n
  {
    var next := TimerIsr(e).env;
    if e.output == e.sustain {
      RunSustain(next, n - 1);
    } else {
      assert next.state == Decay && next.output < e.output && next.sustain == e.sustain;
      DecayReachesSustain(next, n - 1);
    }
  }

  /**
   * A gated attack reaches full level and leaves the attack phase, settling
   * on the sustain level once the decay is over.
   */
  lemma {:induction false} AttackReachesSustain(e: Envelope, n: nat)
    requires Valid(e) && e.state == Attack && e.gate && n >= 2 * 256 - e.output
    ensures Run(e, n).state == Sustain && Run(e, n).output == e.sustain
    decreases n
  {
    var next := TimerIsr(e).env;
    if e.output == FULL {
      if next.state == Sustain {
        RunSustain(next, n - 1);
      } else {
        assert next.state == Decay && next.output < FULL;
        DecayReachesSustain(next, n - 1);
      }
    } else {
      assert next.state == Attack && next.output > e.output;
      AttackReachesSustain(next, n - 1);
    }
  }

  /** From a gate-on, 512 ticks with the gate held reach the sustain level. */
  lemma GateOnReachesSustain(e: Envelope)
    requires Valid(e)
    ensures Valid(GateOn(e).env)
    ensures Run(GateOn(e).env, 512).state == Sustain && Run(GateOn(e).env, 512).output == e.sustain
  {
    AttackReachesSustain(GateOn(e).env, 512);
  }
}

=== FILE: legacy.dfy ===
/*
 * The older copy of the driver (sw/sublime.c): its integer wavetable
 * generators and its `sublime_init`. Its `sublime_get_freq` is the one in
 * module Pitch, read with `Pitch.LegacyNoteTable`. The older `struct voice`
 * holds only note, cents and velocity, while its `sublime_init` sets
 * `active` and `osc[0].enable`; the voices here are the synthesizer copy's
 * `Synth.Voice`, which has those fields.
 */
module Legacy {
  import opened CInt
  import Bits
  import Synth

  const WAVETABLE_SIZE: nat := 8192
  /** `WAVETABLE_SIZE / 2` and `WAVETABLE_SIZE / 4`. */
  const HALF: nat := 4096
  const QUARTER: nat := 2048

  /** The triangle's increment per word: `INT_MAX / (WAVETABLE_SIZE / 4)`. */
  const TRI_STEP: nat := INT_MAX / 2048

  /** `SUBLIME_BASE`: where the older copy places the core. */
  const SUBLIME_BASE: nat := 0x9A00_0000

  // ---------------------------------------------------------------------
  // Wavetables
  // ---------------------------------------------------------------------

  /** The square wave: a positive half at `INT_MAX - 1`, then its negation. */
  function SquareAt(k: nat): i32
    requires k < WAVETABLE_SIZE
  {
    if k < HALF then INT_MAX - 1 else -(INT_MAX - 1)
  }

  /** `gen_square`: two loops of 4096 words. */
  method GenSquare() returns (dest: seq<i32>)
    ensures |dest| == WAVETABLE_SIZE
    ensures forall k :: 0 <= k < WAVETABLE_SIZE ==> dest[k] == SquareAt(k)
  {
    dest := [];
    var i := 0;
    while i < HALF
      invariant 0 <= i <= HALF && |dest| == i
      invariant forall k :: 0 <= k < |dest| ==> dest[k] == SquareAt(k)
    {
      dest := dest + [INT_MAX - 1];
      i := i + 1;
    }
    i := 0;
    while i < HALF
      invariant 0 <= i <= HALF && |dest| == HALF + i
      invariant forall k :: 0 <= k < |dest| ==> dest[k] == SquareAt(k)
    {
      dest := dest + [-(INT_MAX - 1)];
      i := i + 1;
    }
  }

  /** The second half of the square wave is the first half negated. */
  lemma SquareHalfWaveSymmetric(k: nat)
    requires k < HALF
    ensures SquareAt(k + HALF) == -SquareAt(k)
    ensures SquareAt(k) > 0
  {
  }

  /** Word `i` of quarter `q` of the triangle, as the four loops of `gen_triangle` write it. */
  function Ramp(q: nat, i: nat): int
    requires q < 4 && i < QUARTER
  {
    var x: int := i * TRI_STEP;
    if q == 0 then x
    else if q == 1 then INT_MAX - x
    else if q == 2 then -x
    else x - INT_MAX
  }

  /** Every ramp value, and every product `i * TRI_STEP` it is built from, lies within `int32_t`. */
  lemma RampFits(q: nat, i: nat)
    requires q < 4 && i < QUARTER
    ensures 0 <= i * TRI_STEP < INT_MAX
    ensures -INT_MAX <= Ramp(q, i) <= INT_MAX
  {
    assert i * TRI_STEP <= (QUARTER - 1) * TRI_STEP;
  }

  /**
   * The triangle wave by position: up from 0 to its peak over the first
   * quarter, back down over the second, then the same shape negated.
   */
  function TriangleAt(k: nat): (v: i32)
    requires k < WAVETABLE_SIZE
    ensures -INT_MAX <= v <= INT_MAX
  {
    RampFits(k / QUARTER, k % QUARTER);
    Ramp(k / QUARTER, k % QUARTER)
  }

  lemma TriangleAtSplit(q: nat, i: nat)
    requires q < 4 && i < QUARTER
    ensures TriangleAt(QUARTER * q + i) == Ramp(q, i)
  {
    Bits.DivModUnique(QUARTER * q + i, QUARTER, q, i);
  }

  /** `gen_triangle`: four loops of 2048 words. */
  method GenTriangle() returns (dest: seq<i32>)
    ensures |dest| == WAVETABLE_SIZE
    ensures forall k :: 0 <= k < WAVETABLE_SIZE ==> dest[k] == TriangleAt(k)
  {
    dest := [];
    var q := 0;
    while q < 4
      invariant 0 <= q <= 4 && |dest| == QUARTER * q
      invariant forall k :: 0 <= k < |dest| ==> dest[k] == TriangleAt(k)
    {
      var i := 0;
      while i < QUARTER
        invariant 0 <= i <= QUARTER && |dest| == QUARTER * q + i
        invariant forall k :: 0 <= k < |dest| ==> dest[k] == TriangleAt(k)
      {
        RampFits(q, i);
        TriangleAtSplit(q, i);
        dest := dest + [Ramp(q, i)];
        i := i + 1;
      }
      q := q + 1;
    }
  }

  /** The second half of the triangle is the first half negated. */
  lemma TriangleHalfWaveSymmetric(k: nat)
    requires k < HALF
    ensures TriangleAt(k + HALF) == -TriangleAt(k)
  {
    var q, i := k / QUARTER, k % QUARTER;
    Bits.DivModUnique(k, QUARTER, q, i);
    TriangleAtSplit(q, i);
    TriangleAtSplit(q + 2, i);
    assert k + HALF == QUARTER * (q + 2) + i;
  }

  /**
   * Within each of the first two quarters consecutive words differ by one
   * step, up in the first and down in the second. Word 0 is 0 and the peak
   * INT_MAX is word 2048; the step into the peak is one step plus the
   * remainder of INT_MAX / 2048.
   */
  lemma TriangleSlopes(i: nat)
    requires i + 1 < QUARTER
    ensures TriangleAt(i + 1) == TriangleAt(i) + TRI_STEP
    ensures TriangleAt(QUARTER + i + 1) == TriangleAt(QUARTER + i) - TRI_STEP
    ensures TriangleAt(0) == 0 && TriangleAt(QUARTER) == INT_MAX
    ensures TriangleAt(QUARTER) - TriangleAt(QUARTER - 1) == INT_MAX - (QUARTER - 1) * TRI_STEP > TRI_STEP
  {
    TriangleAtSplit(0, QUARTER - 1);
    TriangleAtSplit(0, i);
    TriangleAtSplit(0, i + 1);
    TriangleAtSplit(1, i);
    TriangleAtSplit(1, i + 1);
    TriangleAtSplit(0, 0);
    TriangleAtSplit(1, 0);
  }

  // ---------------------------------------------------------------------
  // Initialisation
  // ---------------------------------------------------------------------

  /**
   * The voice loop of the older `sublime_init`: voices below `n` become
   * inactive with oscillator 0 enabled; nothing else about them changes.
   */
  function InitVoices(voices: seq<Synth.Voice>, n: nat): (r: seq<Synth.Voice>)
    requires n <= |voices|
    ensures |r| == |voices|
    ensures forall k :: 0 <= k < n ==> r[k] == voices[k].(active := false, osc0 := voices[k].osc0.(enable := true))
    ensures forall k :: n <= k < |voices| ==> r[k] == voices[k]
    decreases n
  {
    if n == 0 then voices
    else
      var v := voices[n - 1];
      InitVoices(voices[n - 1 := v.(active := false, osc0 := v.osc0.(enable := true))], n - 1)
  }

  /**
   * The reset loop of the older `sublime_init` as written: register
   * `SUBLIME_BASE + i * 4` is written through `sublime_write_reg`, which
   * adds the base again, so write i lands at offset `SUBLIME_BASE + 4 i`
   * from the core.
   */
  function ResetWritesAsWritten(n: nat): (w: seq<Synth.Write>)
    ensures |w| == 4 * n
    ensures forall k :: 0 <= k < |w| ==> w[k].addr >= SUBLIME_BASE && w[k].value == 0
  {
    seq(4 * n, k requires 0 <= k < 4 * n => Synth.Write(SUBLIME_BASE + 4 * k, 0))
  }

  /**
   * As written, the reset clears no voice register at all: every write
   * lands beyond the register file and both wavetables.
   */
  lemma ResetMissesVoiceRegisters(n: nat, v: nat, r: nat)
    requires Synth.IsVoiceRegister(r)
    ensures Synth.Write(Synth.VoiceReg(v, r), 0) !in ResetWritesAsWritten(n)
    ensures forall k :: 0 <= k < 4 * n ==> ResetWritesAsWritten(n)[k].addr > Synth.WAVETABLE1 + 4 * WAVETABLE_SIZE
  {
  }

  /**
   * The older `sublime_init` after its table generation: the voices are
   * reset, then the register reset as written (every write `SUBLIME_BASE`
   * beyond the intended register), then the sync pulse on `MAIN_CTRL`,
   * which goes through `sublime_write_reg` with a plain offset and so lands
   * where intended. Between the reset and the sync, `gen_saw` and
   * `gen_square` fill both wavetables through raw pointers, outside the
   * `sublime_write_reg` log: `GenSquare` is not part of this log, and
   * `gen_saw` is not modelled.
   */
  function Init(voices: seq<Synth.Voice>, numVoices: nat): (r: (seq<Synth.Voice>, seq<Synth.Write>))
    requires numVoices <= |voices|
    ensures |r.0| == |voices|
    ensures forall k :: 0 <= k < numVoices ==> !r.0[k].active && r.0[k].osc0.enable && r.0[k].osc1 == voices[k].osc1
    ensures forall k :: numVoices <= k < |voices| ==> r.0[k] == voices[k]
    ensures |r.1| == 4 * numVoices + 2
    ensures forall k :: 0 <= k < 4 * numVoices ==> r.1[k] == Synth.Write(SUBLIME_BASE + 4 * k, 0)
    ensures r.1[4 * numVoices ..] == [Synth.Write(Synth.MAIN_CTRL, 1), Synth.Write(Synth.MAIN_CTRL, 0)]
  {
    (InitVoices(voices, numVoices), ResetWritesAsWritten(numVoices) + [Synth.Write(Synth.MAIN_CTRL, 1), Synth.Write(Synth.MAIN_CTRL, 0)])
  }

  /** As written, the older start-up leaves every voice register as it was: only `MAIN_CTRL` among the registers is written. */
  lemma InitMissesVoiceRegisters(voices: seq<Synth.Voice>, numVoices: nat, v: nat, reg: nat, value: nat)
    requires numVoices <= |voices| && Synth.IsVoiceRegister(reg)
    ensures Synth.Write(Synth.VoiceReg(v, reg), value) !in Init(voices, numVoices).1
  {
  }
}

=== FILE: midi.dfy ===
/*
 * The MIDI byte-stream parser and the event dispatcher.
 *
 * The parser reassembles messages of one to three bytes from a stream of
 * single bytes, keeping a running status. Each completed message is handed
 * to the dispatcher, which fans it out to the callbacks registered for its
 * event type. A callback is not run here: the dispatcher's result is the
 * list of invocations it makes, in order, with their arguments.
 */
module Midi {

  import opened CInt
  import opened Wrappers
  import Bits

  const STATUS_BYTE_MASK: u8 := 0x80
  const REALTIME_MASK: u8 := 0xF8
  const NOTE_ON: u8 := 0x90
  const NOTE_OFF: u8 := 0x80
  const CONTROL_CHANGE: u8 := 0xB0
  const PITCHWHEEL_CHANGE: u8 := 0xE0
  const SYSEX_MSG: u8 := 0xF0

  /** Capacity of each callback table. */
  const MAX_CALLBACKS: nat := 10
  /** A listen channel that accepts every channel. */
  const ANY_CHANNEL: u8 := 0xFF

  /** A byte with bit 7 clear. */
  type DataByte = x: int | 0 <= x < 0x80

  // ---------------------------------------------------------------------
  // Byte classification
  // ---------------------------------------------------------------------

  /** `b & STATUS_BYTE_MASK`: a byte is a status byte exactly when bit 7 is set. */
  predicate IsStatusByte(b: u8)
    ensures IsStatusByte(b) <==> b >= 0x80
  {
    Bits.AndHighMask(b, 8, 7, STATUS_BYTE_MASK);
    Bits.And(b, STATUS_BYTE_MASK) != 0
  }

  /** `(b & REALTIME_MASK) == REALTIME_MASK`: the system real-time bytes 0xF8..0xFF. */
  predicate IsRealtime(b: u8)
    ensures IsRealtime(b) <==> b >= 0xF8
  {
    Bits.AndHighMask(b, 8, 3, REALTIME_MASK);
    Bits.And(b, REALTIME_MASK) == REALTIME_MASK
  }

  /**
   * `get_chan`: `(s >> 4) & 0xF`. This is the upper nibble of the status
   * byte, i.e. the message type, not the channel carried in the lower nibble.
   */
  function GetChan(s: u8): (c: u8)
    ensures c < 16
    ensures c == s / 16
  {
    Bits.ShrDivides(s, 4);
    Bits.AndLowMask(s / 16, 4);
    Bits.DivModUnique(s / 16, 16, 0, s / 16);
    Bits.And(Bits.Shr(s, 4), 0x0F)
  }

  /** `s & 0xF0`: the message type of a status byte. */
  function MessageType(s: u8): (t: u8)
    ensures t == s - s % 16
  {
    Bits.AndHighMask(s, 8, 4, 0xF0);
    Bits.And(s, 0xF0)
  }

  /** `(s & 0x0F) | NOTE_OFF`: the note-off status on the same lower nibble. */
  function NoteOffStatus(s: u8): (r: u8)
    ensures r == NOTE_OFF + s % 16
    ensures MessageType(r) == NOTE_OFF
  {
    NoteOffStatusValue(s);
    Bits.Or(Bits.And(s, 0x0F), NOTE_OFF)
  }

  lemma NoteOffStatusValue(s: u8)
    ensures Bits.Or(Bits.And(s, 0x0F), NOTE_OFF) == NOTE_OFF + s % 16
    ensures (NOTE_OFF + s % 16) % 16 == s % 16
  {
    assert Bits.Pow2(4) == 16;
    Bits.AndLowMask(s, 4);
    var low := s % 16;
    assert Bits.And(s, 0x0F) == low;
    Bits.OrCommutes(low, NOTE_OFF);
    assert Bits.Shl(8, 4) == NOTE_OFF;
    Bits.OrIntoShifted(8, 4, low);
    Bits.DivModUnique(NOTE_OFF + low, 16, 8, low);
  }

  /** Statuses whose messages carry one data byte: 0xC0..0xDF and 0xF3. */
  predicate OneDataByte(s: u8)
  {
    (0xBF < s < 0xE0) || s == 0xF3
  }

  // ---------------------------------------------------------------------
  // Parser
  // ---------------------------------------------------------------------

  /**
   * The parser's persistent state: the next write position, the running
   * status and the data bytes of the shared message buffer. Byte 0 of the
   * buffer is rewritten from the running status on every call before it is
   * read, so it is not part of the persistent state.
   */
  datatype Parser = Parser(pos: nat, status: u8, data1: DataByte, data2: DataByte)

  /** A completed message: its recorded length and the three buffer bytes. */
  datatype Message = Message(len: nat, data0: u8, data1: DataByte, data2: DataByte)

  /** The outcome of receiving one byte: the new state and at most one message. */
  datatype Step = Step(parser: Parser, msg: Option<Message>)

  /** Static initial state: position 0, status 0, zeroed buffer. */
  const InitialParser := Parser(0, 0, 0, 0)

  /**
   * `midi_receive_byte`. The parser's position never exceeds 2 between
   * calls, so a data byte is only ever written to data[0..2].
   */
  function ReceiveByte(p: Parser, b: u8): (r: Step)
    requires p.pos <= 2
    ensures r.parser.pos <= 2
    // A status byte becomes the running status and aborts any partial message.
    ensures IsStatusByte(b) ==> r.parser.pos == 1 && r.parser.status == b
    ensures IsStatusByte(b) ==> r.parser.data1 == p.data1 && r.parser.data2 == p.data2
    // It completes a one-byte message exactly when it is above 0xF3.
    ensures IsStatusByte(b) ==> (r.msg.Some? <==> b > 0xF3)
    ensures IsStatusByte(b) && b > 0xF3 ==> r.msg.value.len == 1 && r.msg.value.data0 == b
    // A data byte keeps the running status and completes the message on the
    // first data byte for one-data-byte statuses, on the second otherwise.
    ensures !IsStatusByte(b) ==> r.parser.status == p.status
    ensures !IsStatusByte(b) ==> (r.msg.Some? <==> p.pos == 2 || OneDataByte(p.status))
    ensures !IsStatusByte(b) && r.msg.None? ==> r.parser.pos == p.pos + 1
    ensures !IsStatusByte(b) && r.msg.Some? ==> r.msg.value.len == p.pos + 1
    // A data byte lands at the write position.
    ensures !IsStatusByte(b) && p.pos == 1 ==> r.parser.data1 == b && r.parser.data2 == p.data2
    ensures !IsStatusByte(b) && p.pos == 2 ==> r.parser.data1 == p.data1 && r.parser.data2 == b
    ensures !IsStatusByte(b) && p.pos == 0 ==> r.parser.data1 == p.data1 && r.parser.data2 == p.data2
    // A completed message is the running status followed by the buffer, and
    // completion resets the position to 1 while the running status is kept.
    ensures r.msg.Some? ==> r.parser.pos == 1
    ensures r.msg.Some? && p.pos >= 1 ==> r.msg.value == Message(r.msg.value.len, r.parser.status, r.parser.data1, r.parser.data2)
  {
    if IsStatusByte(b) then
      var next := Parser(1, b, p.data1, p.data2);
      var done := IsRealtime(b) || b > 0xF3;
      Step(next, if done then Some(Message(1, b, p.data1, p.data2)) else None)
    else
      var data0 := if p.pos == 0 then b else p.status;
      var data1 := if p.pos == 1 then b else p.data1;
      var data2 := if p.pos == 2 then b else p.data2;
      var pos := p.pos + 1;
      var done := pos > 2 || OneDataByte(p.status);
      if done then
        Step(Parser(1, p.status, data1, data2), Some(Message(pos, data0, data1, data2)))
      else
        Step(Parser(pos, p.status, data1, data2), None)
  }

  /** The parser driven by a sequence of bytes: the final state and the completed messages in order. */
  function Feed(p: Parser, bytes: seq<u8>): (r: (Parser, seq<Message>))
    requires p.pos <= 2
    ensures r.0.pos <= 2
    ensures |r.1| <= |bytes|
    decreases |bytes|
  {
    if |bytes| == 0 then (p, [])
    else
      var s := ReceiveByte(p, bytes[0]);
      var rest := Feed(s.parser, bytes[1..]);
      (rest.0, (if s.msg.Some? then [s.msg.value] else []) + rest.1)
  }

  /** Statuses whose messages carry two data bytes under the parser's length rule. */
  predicate TwoDataBytes(s: u8)
  {
    0x80 <= s <= 0xF3 && !OneDataByte(s)
  }

  /** The data-byte pairs written one after the other. */
  function Interleave(pairs: seq<(DataByte, DataByte)>): (bytes: seq<u8>)
    ensures |bytes| == 2 * |pairs|
  {
    if |pairs| == 0 then [] else [pairs[0].0 as u8, pairs[0].1 as u8] + Interleave(pairs[1..])
  }

  /** One three-byte message per pair, all under status `s`. */
  function PairMessages(s: u8, pairs: seq<(DataByte, DataByte)>): (msgs: seq<Message>)
    ensures |msgs| == |pairs|
    ensures forall i :: 0 <= i < |pairs| ==> msgs[i] == Message(3, s, pairs[i].0, pairs[i].1)
  {
    seq(|pairs|, i requires 0 <= i < |pairs| => Message(3, s, pairs[i].0, pairs[i].1))
  }

  /**
   * Running status: once a two-data-byte status is current and the position
   * is 1, every following pair of data bytes completes one message carrying
   * that status.
   */
  lemma {:induction false} RunningStatusPairs(p: Parser, pairs: seq<(DataByte, DataByte)>)
    requires p.pos == 1 && TwoDataBytes(p.status)
    ensures Feed(p, Interleave(pairs)).1 == PairMessages(p.status, pairs)
    ensures Feed(p, Interleave(pairs)).0.pos == 1
    ensures Feed(p, Interleave(pairs)).0.status == p.status
    decreases |pairs|
  {
    if |pairs| > 0 {
      var a, b := pairs[0].0, pairs[0].1;
      var bytes := Interleave(pairs);
      assert bytes[0] == a && bytes[1..] == [b as u8] + Interleave(pairs[1..]);
      var s1 := ReceiveByte(p, a);
      assert s1.msg.None? && s1.parser == Parser(2, p.status, a, p.data2);
      var s2 := ReceiveByte(s1.parser, b);
      assert s2.msg == Some(Message(3, p.status, a, b)) && s2.parser == Parser(1, p.status, a, b);
      assert ([b as u8] + Interleave(pairs[1..]))[1..] == Interleave(pairs[1..]);
      RunningStatusPairs(s2.parser, pairs[1..]);
      assert PairMessages(p.status, pairs) == [Message(3, p.status, a, b)] + PairMessages(p.status, pairs[1..]);
    }
  }

  /**
   * A status byte followed by k pairs of data bytes yields exactly k
   * messages, whatever partial message was pending before it.
   */
  lemma StatusThenPairs(p: Parser, s: u8, pairs: seq<(DataByte, DataByte)>)
    requires p.pos <= 2 && TwoDataBytes(s)
    ensures Feed(p, [s] + Interleave(pairs)).1 == PairMessages(s, pairs)
  {
    var bytes := [s] + Interleave(pairs);
    assert bytes[0] == s && bytes[1..] == Interleave(pairs);
    var s0 := ReceiveByte(p, s);
    assert s0.msg.None?;
    RunningStatusPairs(s0.parser, pairs);
  }

  /**
   * As written, a real-time byte in the middle of a message replaces the
   * running status: the remaining data bytes are framed under the real-time
   * status and the interrupted note is never dispatched.
   */
  lemma RealtimeReplacesRunningStatus(p: Parser, key: DataByte, velocity: DataByte, rt: u8, x: DataByte)
    requires p.pos == 1 && TwoDataBytes(p.status) && 0xF8 <= rt
    ensures Feed(p, [x as u8, rt, key as u8, velocity as u8]).1 == [Message(1, rt, x, p.data2), Message(3, rt, key, velocity)]
    ensures Feed(p, [x as u8, rt, key as u8, velocity as u8]).0.status == rt
  {
    var s1 := ReceiveByte(p, x);
    assert s1 == Step(Parser(2, p.status, x, p.data2), None);
    var s2 := ReceiveByte(s1.parser, rt);
    assert s2 == Step(Parser(1, rt, x, p.data2), Some(Message(1, rt, x, p.data2)));
    var s3 := ReceiveByte(s2.parser, key);
    assert s3 == Step(Parser(2, rt, key, p.data2), None);
    var s4 := ReceiveByte(s3.parser, velocity);
    assert s4 == Step(Parser(1, rt, key, velocity), Some(Message(3, rt, key, velocity)));
    FeedCons(s3.parser, velocity, []);
    FeedCons(s2.parser, key, [velocity]);
    FeedCons(s1.parser, rt, [key as u8, velocity]);
    FeedCons(p, x, [rt, key as u8, velocity]);
  }

  /** Feeding a byte and then the rest is one receive step followed by the rest. */
  lemma FeedCons(p: Parser, b: u8, rest: seq<u8>)
    requires p.pos <= 2
    ensures var s := ReceiveByte(p, b);
      Feed(p, [b] + rest) == (Feed(s.parser, rest).0, (if s.msg.Some? then [s.msg.value] else []) + Feed(s.parser, rest).1)
  {
    assert ([b] + rest)[1..] == rest;
  }

  // ---------------------------------------------------------------------
  // Callback tables and dispatch
  // ---------------------------------------------------------------------

  /** An opaque callback function pointer. */
  type CallbackId = nat
  /** An opaque `private_data` pointer. */
  type Context = nat

  /** One table entry: the callback (possibly null), its listen channel and its context. */
  datatype Registration = Registration(cb: Option<CallbackId>, listenChan: u8, context: Context)

  /** The three callback tables, each in registration order. */
  datatype Registry = Registry(noteOn: seq<Registration>, noteOff: seq<Registration>, pitchWheel: seq<Registration>)

  const EmptyRegistry := Registry([], [], [])

  datatype EventKind = NoteOnEvent | NoteOffEvent

  /**
   * One callback invocation made by the dispatcher: which table entry was
   * called and what it received. A pitch-wheel callback's context is read
   * from an uninitialised index, so no context is recorded for it.
   */
  datatype Call =
    | NoteCall(kind: EventKind, index: nat, cb: CallbackId, key: DataByte, velocity: DataByte, context: Context)
    | PitchCall(index: nat, cb: CallbackId, value: i16)

  /** An entry is invoked when its callback is non-null and it listens on `chan` or on every channel. */
  predicate Listens(r: Registration, chan: u8)
  {
    r.cb.Some? && (r.listenChan == ANY_CHANNEL || r.listenChan == chan)
  }

  /** Every call is a well-formed note call for entry `index` of `table`. */
  predicate NoteCallsFrom(calls: seq<Call>, kind: EventKind, table: seq<Registration>, from: nat, chan: u8, key: DataByte, velocity: DataByte)
  {
    forall k :: 0 <= k < |calls| ==>
      && calls[k].NoteCall?
      && calls[k].kind == kind
      && from <= calls[k].index < |table|
      && Listens(table[calls[k].index], chan)
      && calls[k].cb == table[calls[k].index].cb.value
      && calls[k].key == key && calls[k].velocity == velocity
      && calls[k].context == table[calls[k].index].context
  }

  /** The calls follow registration order, each entry at most once. */
  predicate InTableOrder(calls: seq<Call>)
  {
    forall k, l :: 0 <= k < l < |calls| ==> calls[k].index < calls[l].index
  }

  /** Every listening entry at or after `from` is invoked. */
  predicate CoversListeners(calls: seq<Call>, table: seq<Registration>, from: nat, chan: u8)
  {
    forall j :: from <= j < |table| && Listens(table[j], chan) ==>
      exists k :: 0 <= k < |calls| && calls[k].index == j
  }

  lemma CoversAfterPrepend(c: Call, rest: seq<Call>, table: seq<Registration>, from: nat, chan: u8)
    requires c.index == from && CoversListeners(rest, table, from + 1, chan)
    ensures CoversListeners([c] + rest, table, from, chan)
  {
    var calls := [c] + rest;
    forall j | from <= j < |table| && Listens(table[j], chan)
      ensures exists k :: 0 <= k < |calls| && calls[k].index == j
    {
      if j == from {
        assert calls[0].index == j;
      } else {
        var k :| 0 <= k < |rest| && rest[k].index == j;
        assert calls[k + 1].index == j;
      }
    }
  }

  lemma CoversSkip(calls: seq<Call>, table: seq<Registration>, from: nat, chan: u8)
    requires from < |table| && !Listens(table[from], chan) && CoversListeners(calls, table, from + 1, chan)
    ensures CoversListeners(calls, table, from, chan)
  {
  }

  /** `midi_handle_note_on_off` from entry `from` on. */
  function NoteFanOut(kind: EventKind, table: seq<Registration>, from: nat, chan: u8, key: DataByte, velocity: DataByte): (calls: seq<Call>)
    requires from <= |table|
    ensures NoteCallsFrom(calls, kind, table, from, chan, key, velocity)
    ensures InTableOrder(calls)
    decreases |table| - from
  {
    if from == |table| then []
    else
      var rest := NoteFanOut(kind, table, from + 1, chan, key, velocity);
      var r := table[from];
      if Listens(r, chan) then [NoteCall(kind, from, r.cb.value, key, velocity, r.context)] + rest
      else rest
  }

  /** No listening entry is skipped: the note fan-out invokes each of them. */
  lemma {:induction false} NoteFanOutCovers(kind: EventKind, table: seq<Registration>, from: nat, chan: u8, key: DataByte, velocity: DataByte)
    requires from <= |table|
    ensures CoversListeners(NoteFanOut(kind, table, from, chan, key, velocity), table, from, chan)
    decreases |table| - from
  {
    if from < |table| {
      var rest := NoteFanOut(kind, table, from + 1, chan, key, velocity);
      NoteFanOutCovers(kind, table, from + 1, chan, key, velocity);
      var r := table[from];
      if Listens(r, chan) {
        CoversAfterPrepend(NoteCall(kind, from, r.cb.value, key, velocity, r.context), rest, table, from, chan);
      } else {
        CoversSkip(rest, table, from, chan);
      }
    }
  }

  /** Every call is a pitch-wheel call for a listening entry and carries `value`. */
  predicate PitchCallsFrom(calls: seq<Call>, table: seq<Registration>, from: nat, chan: u8, value: i16)
  {
    forall k :: 0 <= k < |calls| ==>
      && calls[k].PitchCall?
      && from <= calls[k].index < |table|
      && Listens(table[calls[k].index], chan)
      && calls[k].cb == table[calls[k].index].cb.value
      && calls[k].value == value
  }

  /** The fan-out loop of `midi_handle_pitchwheel` from entry `from` on. */
  function PitchFanOut(table: seq<Registration>, from: nat, chan: u8, value: i16): (calls: seq<Call>)
    requires from <= |table|
    ensures PitchCallsFrom(calls, table, from, chan, value)
    ensures InTableOrder(calls)
    decreases |table| - from
  {
    if from == |table| then []
    else
      var rest := PitchFanOut(table, from + 1, chan, value);
      var r := table[from];
      if Listens(r, chan) then [PitchCall(from, r.cb.value, value)] + rest
      else rest
  }

  /** No listening entry is skipped: the pitch-wheel fan-out invokes each of them. */
  lemma {:induction false} PitchFanOutCovers(table: seq<Registration>, from: nat, chan: u8, value: i16)
    requires from <= |table|
    ensures CoversListeners(PitchFanOut(table, from, chan, value), table, from, chan)
    decreases |table| - from
  {
    if from < |table| {
      var rest := PitchFanOut(table, from + 1, chan, value);
      PitchFanOutCovers(table, from + 1, chan, value);
      var r := table[from];
      if Listens(r, chan) {
        CoversAfterPrepend(PitchCall(from, r.cb.value, value), rest, table, from, chan);
      } else {
        CoversSkip(rest, table, from, chan);
      }
    }
  }

  /**
   * The pitch-wheel value `((high << 7) | low) - 0x2000`: the 14-bit
   * position re-centred on zero.
   */
  function PitchValue(high: DataByte, low: DataByte): (v: i16)
    ensures v == high * 128 + low - 0x2000
    ensures -0x2000 <= v < 0x2000
  {
    Bits.OrIntoShifted(high, 7, low);
    Bits.Or(Bits.Shl(high, 7), low) - 0x2000
  }

  /** `midi_handle_msg`: the callback invocations one completed message causes. */
  function HandleMsg(reg: Registry, m: Message): (calls: seq<Call>)
    // Note-on callbacks run only for a note-on with nonzero velocity.
    ensures (exists k :: 0 <= k < |calls| && calls[k].NoteCall? && calls[k].kind == NoteOnEvent) ==>
              MessageType(m.data0) == NOTE_ON && m.data2 != 0
    // Note-off callbacks run for a note-off, or for a note-on with zero velocity.
    ensures (exists k :: 0 <= k < |calls| && calls[k].NoteCall? && calls[k].kind == NoteOffEvent) ==>
              MessageType(m.data0) == NOTE_OFF || (MessageType(m.data0) == NOTE_ON && m.data2 == 0)
    ensures (exists k :: 0 <= k < |calls| && calls[k].PitchCall?) ==> MessageType(m.data0) == PITCHWHEEL_CHANGE
    // Every note callback gets the message's key and velocity.
    ensures forall k :: 0 <= k < |calls| && calls[k].NoteCall? ==> calls[k].key == m.data1 && calls[k].velocity == m.data2
    // Other message types dispatch nothing.
    ensures MessageType(m.data0) !in {NOTE_ON, NOTE_OFF, PITCHWHEEL_CHANGE} ==> calls == []
    decreases if MessageType(m.data0) == NOTE_ON then 1 else 0
  {
    var kind := MessageType(m.data0);
    if kind == NOTE_ON then
      if m.data2 == 0 then
        // Note-on with velocity 0 is treated as note-off.
        HandleMsg(reg, m.(data0 := NoteOffStatus(m.data0)))
      else
        NoteFanOut(NoteOnEvent, reg.noteOn, 0, GetChan(m.data0), m.data1, m.data2)
    else if kind == NOTE_OFF then
      NoteFanOut(NoteOffEvent, reg.noteOff, 0, GetChan(m.data0), m.data1, m.data2)
    else if kind == PITCHWHEEL_CHANGE then
      PitchFanOut(reg.pitchWheel, 0, GetChan(m.data0), PitchValue(m.data2, m.data1))
    else
      []
  }

  /**
   * A note-on with velocity 0 is rewritten once into the note-off on the
   * same lower nibble and handled as that; no note-on callback runs. As
   * written, the value compared against the listen channels changes from 9
   * to 8 with the rewrite.
   */
  lemma NoteOnVelocityZeroIsNoteOff(reg: Registry, m: Message)
    requires MessageType(m.data0) == NOTE_ON && m.data2 == 0
    ensures HandleMsg(reg, m) == HandleMsg(reg, m.(data0 := NOTE_OFF + m.data0 % 16))
    ensures HandleMsg(reg, m) == NoteFanOut(NoteOffEvent, reg.noteOff, 0, 8, m.data1, 0)
    ensures GetChan(m.data0) == 9
  {
  }

  /** A note-on with nonzero velocity reaches exactly the note-on table, compared against 9. */
  lemma NoteOnDispatch(reg: Registry, m: Message)
    requires MessageType(m.data0) == NOTE_ON && m.data2 != 0
    ensures HandleMsg(reg, m) == NoteFanOut(NoteOnEvent, reg.noteOn, 0, 9, m.data1, m.data2)
  {
  }

  /** A note-off reaches exactly the note-off table, compared against 8. */
  lemma NoteOffDispatch(reg: Registry, m: Message)
    requires MessageType(m.data0) == NOTE_OFF
    ensures HandleMsg(reg, m) == NoteFanOut(NoteOffEvent, reg.noteOff, 0, 8, m.data1, m.data2)
  {
  }

  /**
   * A pitch-wheel change reaches exactly the pitch-wheel table, compared
   * against 14, with the re-centred position of its two data bytes.
   */
  lemma PitchWheelDispatch(reg: Registry, m: Message)
    requires MessageType(m.data0) == PITCHWHEEL_CHANGE
    ensures HandleMsg(reg, m) == PitchFanOut(reg.pitchWheel, 0, 14, PitchValue(m.data2, m.data1))
  {
  }

  /** The three reference pitch-wheel positions. */
  lemma PitchWheelReferencePoints()
    ensures PitchValue(0x40, 0) == 0
    ensures PitchValue(0, 0) == -8192
    ensures PitchValue(0x7F, 0x7F) == 8191
  {
  }

  /**
   * A note-on status sent once followed by k key/velocity pairs with
   * nonzero velocities dispatches k note-on fan-outs, one per pair.
   */
  lemma RunningStatusNoteOns(reg: Registry, p: Parser, s: u8, pairs: seq<(DataByte, DataByte)>)
    requires p.pos <= 2 && MessageType(s) == NOTE_ON
    requires forall i :: 0 <= i < |pairs| ==> pairs[i].1 != 0
    ensures |Feed(p, [s] + Interleave(pairs)).1| == |pairs|
    ensures forall i :: 0 <= i < |pairs| ==>
      HandleMsg(reg, Feed(p, [s] + Interleave(pairs)).1[i]) ==
      NoteFanOut(NoteOnEvent, reg.noteOn, 0, 9, pairs[i].0, pairs[i].1)
  {
    StatusThenPairs(p, s, pairs);
    PairNoteOns(reg, s, pairs);
  }

  /** Each note-on message built from a pair with nonzero velocity dispatches that pair's fan-out. */
  lemma PairNoteOns(reg: Registry, s: u8, pairs: seq<(DataByte, DataByte)>)
    requires MessageType(s) == NOTE_ON
    requires forall i :: 0 <= i < |pairs| ==> pairs[i].1 != 0
    ensures forall i :: 0 <= i < |pairs| ==>
      HandleMsg(reg, PairMessages(s, pairs)[i]) == NoteFanOut(NoteOnEvent, reg.noteOn, 0, 9, pairs[i].0, pairs[i].1)
  {
    var msgs := PairMessages(s, pairs);
    forall i | 0 <= i < |pairs|
      ensures HandleMsg(reg, msgs[i]) == NoteFanOut(NoteOnEvent, reg.noteOn, 0, 9, pairs[i].0, pairs[i].1)
    {
      NoteOnDispatch(reg, msgs[i]);
    }
  }

  // ---------------------------------------------------------------------
  // Registration
  // ---------------------------------------------------------------------

  /**
   * The registration rule shared by the three `midi_register_*_cb`: a full
   * table is left unchanged and -1 returned; otherwise the entry is
   * appended at `cb_cnt` and 0 returned.
   */
  function Register(table: seq<Registration>, context: Context, listenChan: u8, cb: Option<CallbackId>): (r: (seq<Registration>, int))
    ensures |table| >= MAX_CALLBACKS <==> r.1 == -1
    ensures r.1 == -1 ==> r.0 == table
    ensures r.1 != -1 ==> r.1 == 0 && |r.0| == |table| + 1 && r.0[..|table|] == table
    ensures r.1 != -1 ==> r.0[|table|] == Registration(cb, listenChan, context)
    ensures |table| <= MAX_CALLBACKS ==> |r.0| <= MAX_CALLBACKS
  {
    if |table| >= MAX_CALLBACKS then (table, -1)
    else (table + [Registration(cb, listenChan, context)], 0)
  }

  function RegisterNoteOn(reg: Registry, context: Context, listenChan: u8, cb: Option<CallbackId>): (r: (Registry, int))
    ensures r.0.noteOff == reg.noteOff && r.0.pitchWheel == reg.pitchWheel
    ensures (r.0.noteOn, r.1) == Register(reg.noteOn, context, listenChan, cb)
  {
    var (t, status) := Register(reg.noteOn, context, listenChan, cb);
    (reg.(noteOn := t), status)
  }

  function RegisterNoteOff(reg: Registry, context: Context, listenChan: u8, cb: Option<CallbackId>): (r: (Registry, int))
    ensures r.0.noteOn == reg.noteOn && r.0.pitchWheel == reg.pitchWheel
    ensures (r.0.noteOff, r.1) == Register(reg.noteOff, context, listenChan, cb)
  {
    var (t, status) := Register(reg.noteOff, context, listenChan, cb);
    (reg.(noteOff := t), status)
  }

  function RegisterPitchWheel(reg: Registry, context: Context, listenChan: u8, cb: Option<CallbackId>): (r: (Registry, int))
    ensures r.0.noteOn == reg.noteOn && r.0.noteOff == reg.noteOff
    ensures (r.0.pitchWheel, r.1) == Register(reg.pitchWheel, context, listenChan, cb)
  {
    var (t, status) := Register(reg.pitchWheel, context, listenChan, cb);
    (reg.(pitchWheel := t), status)
  }

  /**
   * A successfully registered any-channel callback is invoked last, with its
   * own context, and the invocations of the earlier entries are unchanged.
   */
  lemma {:induction false} RegisteredCallbackRunsLast(kind: EventKind, table: seq<Registration>, from: nat, context: Context, cb: CallbackId, chan: u8, key: DataByte, velocity: DataByte)
    requires from <= |table| < MAX_CALLBACKS
    ensures NoteFanOut(kind, Register(table, context, ANY_CHANNEL, Some(cb)).0, from, chan, key, velocity) ==
            NoteFanOut(kind, table, from, chan, key, velocity) + [NoteCall(kind, |table|, cb, key, velocity, context)]
    decreases |table| - from
  {
    var t := Register(table, context, ANY_CHANNEL, Some(cb)).0;
    if from == |table| {
      assert NoteFanOut(kind, t, from + 1, chan, key, velocity) == [];
    } else {
      RegisteredCallbackRunsLast(kind, table, from + 1, context, cb, chan, key, velocity);
      assert t[from] == table[from];
    }
  }
}

=== FILE: pitch.dfy ===
/*
 * `sublime_get_freq`, the same in sw/synth/sublime.c and sw/sublime.c: a
 * note number and a cent offset become the phase increment of an
 * oscillator, read from a table of 129 note increments and a table of 101
 * cent factors in 1/65536 units. The tables are computed in floating point
 * at start-up and are parameters here.
 */
module Pitch {
  import opened CInt
  import Bits

  const NOTE_TABLE_SIZE: nat := 129
  const CENT_TABLE_SIZE: nat := 101
  /** The smallest `int32_t`: `cents - 100` must not overflow below it. */
  const I32_MIN: int := -0x8000_0000

  /** `note_table` and `cent_table`. */
  datatype Tables = Tables(note: seq<u32>, cent: seq<u32>)

  predicate WellSized(t: Tables)
  {
    |t.note| == NOTE_TABLE_SIZE && |t.cent| == CENT_TABLE_SIZE
  }

  /**
   * The cent normalisation with C's truncating division: the number of
   * whole notes carried into the note and the cents left, 0..100. Above 100
   * the cents left are below 100; below 0 they are above 0.
   */
  function SplitCents(cents: i32): (r: (int, int))
    requires cents >= I32_MIN + 100
    ensures 100 * r.0 + r.1 == cents
    ensures 0 <= r.1 <= 100
    ensures 0 <= cents <= 100 ==> r == (0, cents)
    ensures cents > 100 ==> r.1 < 100
    ensures cents < 0 ==> r.1 > 0
  {
    if cents > 100 then (Quot(cents, 100), Rem(cents, 100))
    else if cents < 0 then (Quot(cents - 100, 100), 100 + Rem(cents, 100))
    else (0, cents)
  }

  /**
   * The note after normalisation: `note += carry` wraps as `int8_t`
   * arithmetic, and a negative note is raised to 0.
   */
  function NormalNote(note: i8, cents: i32): (n: int)
    requires cents >= I32_MIN + 100
    ensures 0 <= n < 0x80
    ensures 0 <= note + SplitCents(cents).0 < 0x80 ==> n == note + SplitCents(cents).0
    ensures -0x80 <= note + SplitCents(cents).0 < 0 ==> n == 0
  {
    var wrapped := WrapI8(note + SplitCents(cents).0);
    if wrapped < 0 then 0 else wrapped
  }

  /**
   * The two table indices `sublime_get_freq` reads: `note + 1` and
   * `100 - cents`, always within the tables. Entry i of the note table is
   * note i and entry j of the cent table lowers a pitch by j cents, so the
   * pair stands for the pitch `100 * i - j`, written below as
   * `100 * (i - 1) + (100 - j)`, in cents; it is the requested pitch
   * whenever that lies within notes 0..127.
   */
  function Lookup(note: i8, cents: i32): (r: (nat, nat))
    requires cents >= I32_MIN + 100
    ensures 1 <= r.0 < NOTE_TABLE_SIZE && r.1 < CENT_TABLE_SIZE
    ensures 1 <= 100 * note + cents < 12800 ==> 100 * (r.0 - 1) + (100 - r.1) == 100 * note + cents
    ensures 100 * note + cents < 0 && note + SplitCents(cents).0 >= -0x80 ==> r.0 == 1
  {
    var (carry, c) := SplitCents(cents);
    (NormalNote(note, cents) + 1, 100 - c)
  }

  /**
   * `sublime_get_freq`: the product of the two table entries, shifted right
   * by 16 and truncated to 32 bits.
   */
  function GetFreq(t: Tables, note: i8, cents: i32): (r: u32)
    requires WellSized(t) && cents >= I32_MIN + 100
    ensures var (i, j) := Lookup(note, cents); r == WrapU32((t.note[i] as int) * (t.cent[j] as int) / 0x1_0000)
  {
    var (i, j) := Lookup(note, cents);
    var product: nat := (t.note[i] as int) * (t.cent[j] as int);
    ShiftBy16(product);
    WrapU32(Bits.Shr(product, 16))
  }

  lemma ShiftBy16(a: nat)
    ensures Bits.Shr(a, 16) == a / 0x1_0000
  {
    assert Bits.Pow2(8) == 0x100;
    Bits.Pow2Add(8, 8);
    Bits.ShrDivides(a, 16);
  }

  /**
   * With cent factors at most 1.0 (0x10000), which the cent table's
   * `2^16 / 2^(i/1200)` entries are, the 32-bit truncation loses nothing
   * and the result never exceeds the note's own increment.
   */
  lemma GetFreqScalesDown(t: Tables, note: i8, cents: i32)
    requires WellSized(t) && cents >= I32_MIN + 100
    requires forall j :: 0 <= j < CENT_TABLE_SIZE ==> t.cent[j] <= 0x1_0000
    ensures var (i, j) := Lookup(note, cents);
      GetFreq(t, note, cents) == (t.note[i] as int) * (t.cent[j] as int) / 0x1_0000 <= t.note[i]
  {
    var (i, j) := Lookup(note, cents);
    var n, c := t.note[i] as int, t.cent[j] as int;
    MulBelow(n, c, 0x1_0000);
    assert n * c <= n * 0x1_0000;
    Bits.DivModUnique(n * 0x1_0000, 0x1_0000, n, 0);
  }

  /** Scaling by a factor of at most `m` stays below scaling by `m`. */
  lemma MulBelow(n: nat, c: nat, m: nat)
    requires c <= m
    ensures n * c <= n * m
  {
    assert n * m == n * c + n * (m - c);
  }

  /**
   * The store loop of `gen_note_table`: entries below `count` receive the
   * increments computed in floating point (`values`), the rest keep the zero
   * of a static array.
   */
  function NoteTable(values: seq<u32>, count: nat): (table: seq<u32>)
    requires |values| == NOTE_TABLE_SIZE && count <= NOTE_TABLE_SIZE
    ensures |table| == NOTE_TABLE_SIZE
    ensures forall i :: 0 <= i < count ==> table[i] == values[i]
    ensures forall i :: count <= i < NOTE_TABLE_SIZE ==> table[i] == 0
  {
    seq(NOTE_TABLE_SIZE, i requires 0 <= i < NOTE_TABLE_SIZE => if i < count then values[i] else 0)
  }

  /** The older copy's loop stores entries 0..127 only. */
  function LegacyNoteTable(values: seq<u32>): (table: seq<u32>)
    requires |values| == NOTE_TABLE_SIZE
    ensures table == NoteTable(values, NOTE_TABLE_SIZE - 1)
  {
    NoteTable(values, NOTE_TABLE_SIZE - 1)
  }

  /** The synthesizer's loop stores all 129 entries. */
  function FullNoteTable(values: seq<u32>): (table: seq<u32>)
    requires |values| == NOTE_TABLE_SIZE
    ensures table == values
  {
    NoteTable(values, NOTE_TABLE_SIZE)
  }

  /**
   * With the older copy's table, every pitch from note 127 up to note 128
   * reads the unwritten entry 128 and comes out as 0: the oscillator stops
   * instead of playing the top note.
   */
  lemma LegacyNoteTableSilencesTopNote(values: seq<u32>, cent: seq<u32>, cents: i32)
    requires |values| == NOTE_TABLE_SIZE && |cent| == CENT_TABLE_SIZE && 0 <= cents <= 100
    ensures Lookup(127, cents).0 == NOTE_TABLE_SIZE - 1
    ensures GetFreq(Tables(LegacyNoteTable(values), cent), 127, cents) == 0
  {
  }

  /** Below entry 128 the two tables agree, so every other pitch is unaffected. */
  lemma LegacyNoteTableElsewhere(values: seq<u32>, cent: seq<u32>, note: i8, cents: i32)
    requires |values| == NOTE_TABLE_SIZE && |cent| == CENT_TABLE_SIZE && cents >= I32_MIN + 100
    requires Lookup(note, cents).0 < NOTE_TABLE_SIZE - 1
    ensures GetFreq(Tables(LegacyNoteTable(values), cent), note, cents) == GetFreq(Tables(FullNoteTable(values), cent), note, cents)
  {
  }

  /**
   * With every entry stored, and table values like the generated ones (each
   * note increment at least 2, each cent factor between one half and one),
   * every pitch gives a nonzero increment.
   */
  lemma FullNoteTableSoundsEveryPitch(values: seq<u32>, cent: seq<u32>, note: i8, cents: i32)
    requires |values| == NOTE_TABLE_SIZE && |cent| == CENT_TABLE_SIZE && cents >= I32_MIN + 100
    requires forall i :: 0 <= i < NOTE_TABLE_SIZE ==> values[i] >= 2
    requires forall j :: 0 <= j < CENT_TABLE_SIZE ==> 0x8000 <= cent[j] <= 0x1_0000
    ensures GetFreq(Tables(FullNoteTable(values), cent), note, cents) >= 1
  {
    var t := Tables(FullNoteTable(values), cent);
    var (i, j) := Lookup(note, cents);
    GetFreqScalesDown(t, note, cents);
    var n, c := t.note[i] as int, t.cent[j] as int;
    MulBelow(n, 0x8000, c);
    MulBelow(0x8000, 2, n);
    assert n * c >= 0x1_0000;
  }

  /** A note and cents already in range are looked up as they are. */
  lemma LookupInRange(note: i8, cents: i32)
    requires 0 <= note && 0 <= cents <= 100
    ensures Lookup(note, cents) == (note + 1, 100 - cents)
  {
  }

  /**
   * Negative cents borrow from the note: one cent below note 60 is read
   * as 99 cents above note 59.
   */
  lemma LookupBorrows()
    ensures Lookup(60, -1) == (60, 1)
    ensures Lookup(60, -100) == (59, 0)
  {
  }

  /**
   * Two quirks of the normalisation as written: cents that carry past note
   * 127 wrap the `int8_t` note to -128, which is then raised to note 0; and
   * a pitch landing exactly on note 0 from above is split into note -1 plus
   * 100 cents, which the raise to 0 turns into note 1.
   */
  lemma LookupEdgeQuirks()
    ensures Lookup(127, 150) == (1, 50)
    ensures Lookup(1, -100) == (1, 0)
  {
  }
}

=== FILE: synth.dfy ===
/*
 * The voice allocator and output glue of the synthesizer
 * (sw/synth/sublime.c) and the register layout of its oscillator core
 * (sw/synth/sublime.h). Register writes are recorded as a log of
 * (offset, value) pairs relative to the core's base address.
 */
module Synth {
  import opened CInt
  import opened Wrappers
  import Bits
  import Envelope
  import Pitch
  import Midi
  import Timer

  // ---------------------------------------------------------------------
  // Register layout
  // ---------------------------------------------------------------------

  const WAVETABLE_SIZE: nat := 8192
  const MAX_NUM_VOICES: nat := 128

  const VOICE_OSC0_FREQ: nat := 0x0
  const VOICE_OSC1_FREQ: nat := 0x4
  const VOICE_CTRL: nat := 0x8
  const VOICE_ENVELOPE: nat := 0xC

  const LEFT_SAMPLE: nat := 0x800
  const RIGHT_SAMPLE: nat := 0x804
  const MAIN_CTRL: nat := 0x808
  const SUBLIME_CONFIG: nat := 0x80C

  const WAVETABLE0: nat := 0x1_0000
  const WAVETABLE1: nat := 0x2_0000

  /** The four registers of one voice. */
  predicate IsVoiceRegister(r: nat)
  {
    r == VOICE_OSC0_FREQ || r == VOICE_OSC1_FREQ || r == VOICE_CTRL || r == VOICE_ENVELOPE
  }

  /**
   * `VOICE_REG(voice, reg)`: `((voice & 0x7f) << 4) | reg`. The voice index
   * is taken modulo 128 and each voice owns a 16-byte block.
   */
  function VoiceReg(voice: nat, reg: nat): (addr: nat)
    requires reg < 16
    ensures addr == 16 * (voice % MAX_NUM_VOICES) + reg
    ensures addr < LEFT_SAMPLE
  {
    Bits.AndLowMask(voice, 7);
    assert Bits.Pow2(7) == 0x80;
    assert Bits.Pow2(4) == 16;
    Bits.OrIntoShifted(voice % MAX_NUM_VOICES, 4, reg);
    Bits.Or(Bits.Shl(Bits.And(voice, 0x7F), 4), reg)
  }

  /** Distinct (voice, register) pairs of the 128-voice pool have distinct addresses. */
  lemma VoiceRegInjective(v1: nat, r1: nat, v2: nat, r2: nat)
    requires v1 < MAX_NUM_VOICES && v2 < MAX_NUM_VOICES && r1 < 16 && r2 < 16
    requires VoiceReg(v1, r1) == VoiceReg(v2, r2)
    ensures v1 == v2 && r1 == r2
  {
    var a := VoiceReg(v1, r1);
    Bits.DivModUnique(v1, MAX_NUM_VOICES, 0, v1);
    Bits.DivModUnique(v2, MAX_NUM_VOICES, 0, v2);
    assert a == 16 * v1 + r1 && a == 16 * v2 + r2;
    Bits.DivModUnique(a, 16, v1, r1);
    Bits.DivModUnique(a, 16, v2, r2);
  }

  /**
   * The per-voice block lies below the global registers, and the two
   * wavetables of 8192 words each neither overlap each other nor the
   * register file.
   */
  lemma AddressMapDisjoint(voice: nat, reg: nat)
    requires reg < 16
    ensures VoiceReg(voice, reg) < LEFT_SAMPLE < RIGHT_SAMPLE < MAIN_CTRL < SUBLIME_CONFIG < WAVETABLE0
    ensures WAVETABLE0 + 4 * WAVETABLE_SIZE <= WAVETABLE1
  {
  }

  // ---------------------------------------------------------------------
  // Controller values to durations
  // ---------------------------------------------------------------------

  /** The longest duration `to_us` yields: 16 seconds. */
  const MAX_DURATION_US: nat := 16_000_000

  /**
   * `to_us`: a 7-bit controller value becomes a duration in microseconds,
   * in 1 ms steps up to 10, 10 ms steps up to 100, 500 ms steps up to 126,
   * and 16 s from 127 on.
   */
  function ToUs(value: u32): (us: u32)
    ensures us <= MAX_DURATION_US && us % 1000 == 0
    ensures value == 0 <==> us == 0
    ensures value >= 127 ==> us == MAX_DURATION_US
    ensures value <= 10 ==> us == 1000 * value
  {
    if value <= 10 then 1000 * value
    else if value <= 100 then 10000 * (value - 10)
    else if value < 127 then 100000 * (value - 100) * 5
    else 16_000_000
  }

  /** Which of the four linear pieces of `to_us` a value falls in. */
  function ToUsPiece(value: u32): nat
  {
    if value <= 10 then 0 else if value <= 100 then 1 else if value < 127 then 2 else 3
  }

  /**
   * `to_us` is increasing within each piece, strictly below 127, but not
   * overall: 100 maps to 900 ms and 101 to 500 ms.
   */
  lemma ToUsShape(a: u32, b: u32)
    requires a < b && ToUsPiece(a) == ToUsPiece(b)
    ensures ToUs(a) <= ToUs(b)
    ensures b < 127 ==> ToUs(a) < ToUs(b)
    ensures ToUs(100) == 900_000 && ToUs(101) == 500_000 && ToUs(10) == 10_000 && ToUs(11) == 10_000
  {
  }

  // ---------------------------------------------------------------------
  // Voices
  // ---------------------------------------------------------------------

  /** One oscillator of a voice: enabled or not, and its detune in notes and cents. */
  datatype Osc = Osc(enable: bool, detuneNotes: i8, detuneCents: i8)

  /** `struct voice` as the synthesizer uses it; `timer` is its envelope's timer handle. */
  datatype Voice = Voice(
    active: bool,
    velocity: u8,
    note: u8,
    osc0: Osc,
    osc1: Osc,
    ampEnv: Envelope.Envelope,
    timer: Option<nat>)

  /** `struct sublime`: the number of voices in use, the voice pool and the pitch bend in cents. */
  datatype Synth = Synth(numVoices: nat, voices: seq<Voice>, pitchwheel: i32)

  predicate WellFormed(s: Synth)
  {
    |s.voices| == MAX_NUM_VOICES && s.numVoices <= MAX_NUM_VOICES
  }

  /** A register write: offset from the core's base and the 32-bit value. */
  datatype Write = Write(addr: nat, value: nat)

  /** A request to start voice `voice`'s envelope timer for `delayUs`. */
  datatype TimerStart = TimerStart(voice: nat, delayUs: u32)

  /** The effect of a MIDI callback: the new synthesizer state and the envelope timer it starts, if any. */
  datatype Effect = Effect(synth: Synth, start: Option<TimerStart>)

  /** The least voice in use at or after `from` that is not active, or -1. */
  function FreeFrom(s: Synth, from: nat): (r: int)
    requires WellFormed(s) && from <= s.numVoices
    ensures r == -1 <==> forall i :: from <= i < s.numVoices ==> s.voices[i].active
    ensures r != -1 ==> from <= r < s.numVoices && !s.voices[r].active
    ensures r != -1 ==> forall i :: from <= i < r ==> s.voices[i].active
    decreases s.numVoices - from
  {
    if from == s.numVoices then -1
    else if !s.voices[from].active then from
    else FreeFrom(s, from + 1)
  }

  /** `sublime_get_free_voice`: the least inactive voice index below `num_voices`, or -1. */
  function GetFreeVoice(s: Synth): (r: int)
    requires WellFormed(s)
    ensures r == -1 <==> forall i :: 0 <= i < s.numVoices ==> s.voices[i].active
    ensures r != -1 ==> 0 <= r < s.numVoices && !s.voices[r].active
    ensures r != -1 ==> forall i :: 0 <= i < r ==> s.voices[i].active
  {
    FreeFrom(s, 0)
  }

  /** A voice whose envelope gate is on and that plays `note`. */
  predicate Holds(v: Voice, note: u8)
  {
    v.ampEnv.gate && v.note == note
  }

  function HeldFrom(s: Synth, note: u8, from: nat): (r: int)
    requires WellFormed(s) && from <= s.numVoices
    ensures r == -1 <==> forall i :: from <= i < s.numVoices ==> !Holds(s.voices[i], note)
    ensures r != -1 ==> from <= r < s.numVoices && Holds(s.voices[r], note)
    ensures r != -1 ==> forall i :: from <= i < r ==> !Holds(s.voices[i], note)
    decreases s.numVoices - from
  {
    if from == s.numVoices then -1
    else if Holds(s.voices[from], note) then from
    else HeldFrom(s, note, from + 1)
  }

  /** `sublime_get_voice_by_note`: the least voice index with its gate on playing `note`, or -1. */
  function GetVoiceByNote(s: Synth, note: u8): (r: int)
    requires WellFormed(s)
    ensures r == -1 <==> forall i :: 0 <= i < s.numVoices ==> !Holds(s.voices[i], note)
    ensures r != -1 ==> 0 <= r < s.numVoices && Holds(s.voices[r], note)
    ensures r != -1 ==> forall i :: 0 <= i < r ==> !Holds(s.voices[i], note)
  {
    HeldFrom(s, note, 0)
  }

  // ---------------------------------------------------------------------
  // MIDI callbacks
  // ---------------------------------------------------------------------

  /**
   * `sublime_note_on_cb`: the first free voice takes the key and velocity,
   * becomes active and has its envelope gated on; with no free voice the
   * note is dropped and nothing changes.
   */
  function NoteOn(s: Synth, key: Midi.DataByte, velocity: Midi.DataByte): (r: Effect)
    requires WellFormed(s)
    ensures WellFormed(r.synth) && r.synth.numVoices == s.numVoices && r.synth.pitchwheel == s.pitchwheel
    ensures GetFreeVoice(s) == -1 ==> r == Effect(s, None)
    ensures GetFreeVoice(s) != -1 ==>
      var v := GetFreeVoice(s);
      var g := Envelope.GateOn(s.voices[v].ampEnv);
      && r.synth.voices == s.voices[v := s.voices[v].(note := key, velocity := velocity, active := true, ampEnv := g.env)]
      && r.start == Some(TimerStart(v, g.wait.value))
  {
    var v := GetFreeVoice(s);
    if v < 0 then Effect(s, None)
    else
      var voice := s.voices[v];
      var g := Envelope.GateOn(voice.ampEnv);
      var voice' := voice.(note := key, velocity := velocity, active := true, ampEnv := g.env);
      Effect(s.(voices := s.voices[v := voice']), Some(TimerStart(v, g.wait.value)))
  }

  /** The division of a gate-off is defined for every voice in use. */
  predicate GateOffsDefined(s: Synth)
    requires WellFormed(s)
  {
    forall i :: 0 <= i < s.numVoices && s.voices[i].ampEnv.state == Envelope.Sustain ==>
      s.voices[i].ampEnv.output == 0 || s.voices[i].ampEnv.releaseOutput > 0
  }

  /**
   * `sublime_note_off_cb`: the first voice holding the key has its velocity
   * replaced by a nonzero release velocity and its envelope gated off; when
   * no voice holds the key nothing changes.
   */
  function NoteOff(s: Synth, key: Midi.DataByte, velocity: Midi.DataByte): (r: Effect)
    requires WellFormed(s) && GateOffsDefined(s)
    ensures WellFormed(r.synth) && r.synth.numVoices == s.numVoices && r.synth.pitchwheel == s.pitchwheel
    ensures GetVoiceByNote(s, key) == -1 ==> r == Effect(s, None)
    ensures GetVoiceByNote(s, key) != -1 ==>
      var v := GetVoiceByNote(s, key);
      var g := Envelope.GateOff(s.voices[v].ampEnv);
      && r.synth.voices == s.voices[v := s.voices[v].(velocity := if velocity != 0 then velocity else s.voices[v].velocity, ampEnv := g.env)]
      && !r.synth.voices[v].ampEnv.gate
      && (r.start.Some? <==> g.wait.Some?)
      && (r.start.Some? ==> r.start.value == TimerStart(v, g.wait.value))
  {
    var v := GetVoiceByNote(s, key);
    if v < 0 then Effect(s, None)
    else
      var voice := s.voices[v];
      var vel := if velocity != 0 then velocity else voice.velocity;
      var g := Envelope.GateOff(voice.ampEnv);
      var start := if g.wait.Some? then Some(TimerStart(v, g.wait.value)) else None;
      Effect(s.(voices := s.voices[v := voice.(velocity := vel, ampEnv := g.env)]), start)
  }

  /** `200 * pw / 8192` with C's truncating division. */
  function BendCents(pw: i16): (r: int)
    ensures -0x2000 <= pw < 0x2000 ==> -200 <= r <= 199
    ensures -800 <= r <= 800
    ensures pw >= 0 ==> 0 <= r && 8192 * r <= 200 * pw < 8192 * (r + 1)
    ensures pw < 0 ==> r <= 0 && 8192 * (r - 1) < 200 * pw <= 8192 * r
  {
    Quot(200 * pw, 8192)
  }

  /** `sublime_pitchwheel_cb`: the bend of all voices becomes the wheel position scaled to cents. */
  function PitchWheel(s: Synth, pw: i16): (r: Synth)
    ensures r == s.(pitchwheel := r.pitchwheel)
    ensures -0x2000 <= pw < 0x2000 ==> -200 <= r.pitchwheel <= 199
    ensures r.pitchwheel == BendCents(pw)
    // Any bend the wheel can set leaves every oscillator's offset in range for `sublime_get_freq`.
    ensures WellFormed(s) ==> WellFormed(r) && CentsInRange(r)
  {
    var r := s.(pitchwheel := BendCents(pw));
    assert WellFormed(s) ==> CentsInRange(r) by {
      if WellFormed(s) {
        SmallBendInRange(r);
      }
    }
    r
  }

  /**
   * With a bend of at most 800 cents either way, the `int8_t` detunes keep
   * every oscillator's offset far inside `int32_t`.
   */
  lemma SmallBendInRange(s: Synth)
    requires WellFormed(s) && -800 <= s.pitchwheel <= 800
    ensures CentsInRange(s)
  {
  }

  /** The wheel scaling is monotone and symmetric about the centre. */
  lemma BendCentsShape(a: i16, b: i16)
    requires a <= b
    ensures BendCents(a) <= BendCents(b)
    ensures -0x8000 < a ==> BendCents(-a) == -BendCents(a)
  {
    if a >= 0 {
      assert (200 * a) / 8192 <= (200 * b) / 8192;
    } else if b >= 0 {
    } else {
      assert (-200 * b) / 8192 <= (-200 * a) / 8192;
    }
  }

  /** The wheel's extremes and centre, scaled to cents. */
  lemma BendCentsReferencePoints()
    ensures BendCents(-0x2000) == -200 && BendCents(0) == 0 && BendCents(0x1FFF) == 199
    ensures BendCents(41) == 1 && BendCents(-41) == -1 && BendCents(40) == 0
  {
  }

  // ---------------------------------------------------------------------
  // Output
  // ---------------------------------------------------------------------

  /** `(velocity * output) / 256`: the voice amplitude. */
  function Amplitude(velocity: u8, output: u8): (amp: nat)
    ensures amp <= 254
    ensures amp * 256 <= velocity * output < (amp + 1) * 256
    ensures velocity < 0x80 ==> amp <= 126
  {
    var p := velocity * output;
    ProductOfBytes(velocity, output);
    ScaleDown(p);
    p / 256
  }

  lemma ScaleDown(p: nat)
    requires p <= 255 * 255
    ensures p / 256 <= 254
    ensures (p / 256) * 256 <= p < (p / 256 + 1) * 256
    ensures p <= 127 * 255 ==> p / 256 <= 126
  {
    Bits.DivModUnique(p, 256, p / 256, p % 256);
  }

  lemma ProductOfBytes(a: u8, b: u8)
    ensures a * b <= 255 * 255
    ensures a < 0x80 ==> a * b <= 127 * 255
  {
    assert a * b <= a * 255 by {
      assert a * 255 == a * b + a * (255 - b);
    }
  }

  /** A C truth value as a bit. */
  function Bit(b: bool): nat
  {
    if b then 1 else 0
  }

  /** The control word `amp << 8 | osc1_enable << 1 | osc0_enable`. */
  function ControlWord(amp: nat, en1: bool, en0: bool): (w: nat)
    ensures w == 256 * amp + 2 * Bit(en1) + Bit(en0)
  {
    assert Bits.Pow2(1) == 2;
    assert Bits.Pow2(8) == 256;
    Bits.OrIntoShifted(amp, 8, 2 * Bit(en1));
    assert Bits.Shl(amp, 8) + 2 * Bit(en1) == Bits.Shl(128 * amp + Bit(en1), 1);
    Bits.OrIntoShifted(128 * amp + Bit(en1), 1, Bit(en0));
    Bits.Or(Bits.Or(Bits.Shl(amp, 8), Bits.Shl(Bit(en1), 1)), Bit(en0))
  }

  /** The hardware reads the amplitude and both enables back out of the control word. */
  lemma ControlWordRoundTrip(amp: nat, en1: bool, en0: bool)
    ensures ControlWord(amp, en1, en0) / 256 == amp
    ensures (ControlWord(amp, en1, en0) / 2) % 2 == Bit(en1)
    ensures ControlWord(amp, en1, en0) % 2 == Bit(en0)
  {
    var w := ControlWord(amp, en1, en0);
    Bits.DivModUnique(w, 256, amp, 2 * Bit(en1) + Bit(en0));
    Bits.DivModUnique(w, 2, 128 * amp + Bit(en1), Bit(en0));
    Bits.DivModUnique(128 * amp + Bit(en1), 2, 64 * amp, Bit(en1));
  }

  /** An oscillator's pitch offset: the global bend plus its detune. */
  function OscCents(bend: i32, o: Osc): int
  {
    bend + 100 * o.detuneNotes + o.detuneCents
  }

  /** The offsets of both oscillators stay within `int32_t`, and `sublime_get_freq` can lower them by 100. */
  predicate CentsInRange(s: Synth)
    requires WellFormed(s)
  {
    forall i :: 0 <= i < s.numVoices ==>
      && Pitch.I32_MIN + 100 <= OscCents(s.pitchwheel, s.voices[i].osc0) <= INT_MAX
      && Pitch.I32_MIN + 100 <= OscCents(s.pitchwheel, s.voices[i].osc1) <= INT_MAX
  }

  /**
   * `sublime_write_voice`: a voice whose envelope has gone idle is freed;
   * the control word and both oscillator frequencies are written to the
   * voice's registers, each oscillator at the voice's note offset by the
   * bend and its own detune.
   */
  function WriteVoice(s: Synth, t: Pitch.Tables, i: nat): (r: (Synth, seq<Write>))
    requires WellFormed(s) && Pitch.WellSized(t) && i < s.numVoices && CentsInRange(s)
    ensures WellFormed(r.0)
    ensures r.0 == s.(voices := s.voices[i := r.0.voices[i]])
    ensures r.0.voices[i] == s.voices[i].(active := r.0.voices[i].active)
    ensures r.0.voices[i].active <==> s.voices[i].active && Envelope.IsActive(s.voices[i].ampEnv)
    ensures |r.1| == 3
    ensures r.1[0].addr == VoiceReg(i, VOICE_CTRL) && r.1[1].addr == VoiceReg(i, VOICE_OSC0_FREQ) && r.1[2].addr == VoiceReg(i, VOICE_OSC1_FREQ)
    ensures var v := s.voices[i];
      r.1[0].value == ControlWord(Amplitude(v.velocity, v.ampEnv.output), v.osc1.enable, v.osc0.enable)
    ensures var v := s.voices[i];
      && r.1[1].value == Pitch.GetFreq(t, WrapI8(v.note), OscCents(s.pitchwheel, v.osc0))
      && r.1[2].value == Pitch.GetFreq(t, WrapI8(v.note), OscCents(s.pitchwheel, v.osc1))
  {
    var v := s.voices[i];
    var v' := if !Envelope.IsActive(v.ampEnv) then v.(active := false) else v;
    var amp := Amplitude(v'.velocity, v'.ampEnv.output);
    var ctrl := Write(VoiceReg(i, VOICE_CTRL), ControlWord(amp, v'.osc1.enable, v'.osc0.enable));
    var f0 := Write(VoiceReg(i, VOICE_OSC0_FREQ), Pitch.GetFreq(t, WrapI8(v'.note), OscCents(s.pitchwheel, v'.osc0)));
    var f1 := Write(VoiceReg(i, VOICE_OSC1_FREQ), Pitch.GetFreq(t, WrapI8(v'.note), OscCents(s.pitchwheel, v'.osc1)));
    (s.(voices := s.voices[i := v']), [ctrl, f0, f1])
  }

  /** `sublime_task` from voice `i` on: every voice in use is written, in order. */
  function TaskFrom(s: Synth, t: Pitch.Tables, i: nat): (r: (Synth, seq<Write>))
    requires WellFormed(s) && Pitch.WellSized(t) && i <= s.numVoices && CentsInRange(s)
    ensures WellFormed(r.0) && r.0.numVoices == s.numVoices && r.0.pitchwheel == s.pitchwheel
    ensures |r.1| == 3 * (s.numVoices - i)
    ensures forall k :: 0 <= k < |s.voices| && (k < i || k >= s.numVoices) ==> r.0.voices[k] == s.voices[k]
    ensures forall k :: i <= k < s.numVoices ==>
      r.0.voices[k] == s.voices[k].(active := s.voices[k].active && Envelope.IsActive(s.voices[k].ampEnv))
    decreases s.numVoices - i
  {
    if i == s.numVoices then (s, [])
    else
      var (s1, w) := WriteVoice(s, t, i);
      assert CentsInRange(s1) by {
        assert forall k :: 0 <= k < s.numVoices ==> s1.voices[k].osc0 == s.voices[k].osc0 && s1.voices[k].osc1 == s.voices[k].osc1;
      }
      var (s2, rest) := TaskFrom(s1, t, i + 1);
      (s2, w + rest)
  }

  /** The writes of a voice depend only on that voice and the bend, not on the other voices. */
  lemma WriteVoiceLocal(s: Synth, s': Synth, t: Pitch.Tables, k: nat)
    requires WellFormed(s) && Pitch.WellSized(t) && k < s.numVoices && CentsInRange(s)
    requires WellFormed(s') && k < s'.numVoices && CentsInRange(s')
    requires s'.voices[k] == s.voices[k] && s'.pitchwheel == s.pitchwheel
    ensures WriteVoice(s', t, k).1 == WriteVoice(s, t, k).1
  {
  }

  /** One step of a pass: voice `i`'s writes, then the pass from `i + 1` over the updated state. */
  lemma TaskFromUnfold(s: Synth, t: Pitch.Tables, i: nat)
    requires WellFormed(s) && Pitch.WellSized(t) && i < s.numVoices && CentsInRange(s)
    ensures var s1 := WriteVoice(s, t, i).0;
      && CentsInRange(s1) && s1.numVoices == s.numVoices && s1.pitchwheel == s.pitchwheel
      && (forall k :: 0 <= k < s.numVoices && k != i ==> s1.voices[k] == s.voices[k])
      && TaskFrom(s, t, i).1 == WriteVoice(s, t, i).1 + TaskFrom(s1, t, i + 1).1
  {
    var s1 := WriteVoice(s, t, i).0;
    assert forall k :: 0 <= k < s.numVoices ==> s1.voices[k].osc0 == s.voices[k].osc0 && s1.voices[k].osc1 == s.voices[k].osc1;
  }

  /**
   * The reference for a pass: each voice's three writes from voice `i` on,
   * in voice order, all read from the state before the pass.
   */
  function VoiceWrites(s: Synth, t: Pitch.Tables, i: nat): (w: seq<Write>)
    requires WellFormed(s) && Pitch.WellSized(t) && i <= s.numVoices && CentsInRange(s)
    ensures |w| == 3 * (s.numVoices - i)
    ensures i < s.numVoices ==> w[..3] == WriteVoice(s, t, i).1
    decreases s.numVoices - i
  {
    if i == s.numVoices then [] else WriteVoice(s, t, i).1 + VoiceWrites(s, t, i + 1)
  }

  /** The reference writes from voice `i` on depend only on those voices and the bend. */
  lemma {:induction false} VoiceWritesLocal(s: Synth, s': Synth, t: Pitch.Tables, i: nat)
    requires WellFormed(s) && Pitch.WellSized(t) && i <= s.numVoices && CentsInRange(s)
    requires WellFormed(s') && s'.numVoices == s.numVoices && CentsInRange(s') && s'.pitchwheel == s.pitchwheel
    requires forall k :: i <= k < s.numVoices ==> s'.voices[k] == s.voices[k]
    ensures VoiceWrites(s', t, i) == VoiceWrites(s, t, i)
    decreases s.numVoices - i
  {
    if i < s.numVoices {
      WriteVoiceLocal(s, s', t, i);
      VoiceWritesLocal(s, s', t, i + 1);
    }
  }

  /** A pass from voice `i` on writes exactly the reference writes. */
  lemma {:induction false} TaskFromWrites(s: Synth, t: Pitch.Tables, i: nat)
    requires WellFormed(s) && Pitch.WellSized(t) && i <= s.numVoices && CentsInRange(s)
    ensures TaskFrom(s, t, i).1 == VoiceWrites(s, t, i)
    decreases s.numVoices - i
  {
    if i < s.numVoices {
      TaskFromUnfold(s, t, i);
      var s1 := WriteVoice(s, t, i).0;
      TaskFromWrites(s1, t, i + 1);
      VoiceWritesLocal(s, s1, t, i + 1);
    }
  }

  /** `sublime_task`. */
  function Task(s: Synth, t: Pitch.Tables): (r: (Synth, seq<Write>))
    requires WellFormed(s) && Pitch.WellSized(t) && CentsInRange(s)
    ensures WellFormed(r.0) && r.0.numVoices == s.numVoices && r.0.pitchwheel == s.pitchwheel
    ensures |r.1| == 3 * s.numVoices
    // After a pass every voice still active has a sounding envelope.
    ensures forall k :: 0 <= k < s.numVoices ==> (r.0.voices[k].active <==> s.voices[k].active && Envelope.IsActive(s.voices[k].ampEnv))
    ensures forall k :: 0 <= k < MAX_NUM_VOICES ==> r.0.voices[k].ampEnv == s.voices[k].ampEnv
  {
    TaskFrom(s, t, 0)
  }

  /** The task writes every voice in use, three writes each, in voice order. */
  lemma TaskWrites(s: Synth, t: Pitch.Tables)
    requires WellFormed(s) && Pitch.WellSized(t) && CentsInRange(s)
    ensures Task(s, t).1 == VoiceWrites(s, t, 0)
  {
    TaskFromWrites(s, t, 0);
  }

  // ---------------------------------------------------------------------
  // Initialisation
  // ---------------------------------------------------------------------

  const ATTACK_US: u32 := 50000
  const DECAY_US: u32 := 100000
  const SUSTAIN_LEVEL: u8 := 0x7F
  const RELEASE_US: u32 := 1000000

  /** The callbacks the synthesizer registers and the context it passes. */
  const NOTE_ON_CB: Midi.CallbackId := 0
  const NOTE_OFF_CB: Midi.CallbackId := 1
  const PITCHWHEEL_CB: Midi.CallbackId := 2
  const ENVELOPE_ISR_CB: Timer.CallbackId := 3
  const SYNTH_CONTEXT: Midi.Context := 0

  /** `sublime_read_reg(SUBLIME_CONFIG) & 0x7f`: the voice count the core reports. */
  function VoiceCount(config: u32): (n: nat)
    ensures n == config % MAX_NUM_VOICES && n < MAX_NUM_VOICES
  {
    Bits.AndLowMask(config, 7);
    assert Bits.Pow2(7) == 0x80;
    Bits.And(config, 0x7F)
  }

  /**
   * One voice set up by `sublime_init`: inactive, both oscillators
   * enabled, its envelope's gate cleared and its durations and sustain
   * level set to the defaults, with the timer `envelope_init` allocated.
   * The envelope's phase and level are not reset.
   */
  function ResetVoice(v: Voice, timer: Option<nat>): (r: Voice)
    ensures !r.active && r.osc0.enable && r.osc1.enable && r.timer == timer
    ensures r.ampEnv == v.ampEnv.(gate := false, attack := ATTACK_US, decay := DECAY_US, sustain := SUSTAIN_LEVEL, release := RELEASE_US)
    ensures r.note == v.note && r.velocity == v.velocity
  {
    var env := v.ampEnv.(gate := false, attack := ATTACK_US, decay := DECAY_US, sustain := SUSTAIN_LEVEL, release := RELEASE_US);
    v.(active := false, osc0 := v.osc0.(enable := true), osc1 := v.osc1.(enable := true), ampEnv := env, timer := timer)
  }

  /** The slot `timer_alloc` set up for the envelope of voice `k`: ACTIVE, not running, with the envelope's callback and `k` as context. */
  predicate EnvelopeSlot(slot: Timer.Slot, k: nat)
  {
    slot.active && !slot.running && slot.cb == Some(ENVELOPE_ISR_CB) && slot.context == k
  }

  /**
   * The voice loop of `sublime_init` from voice `i` on, allocating one
   * envelope timer per voice: every timer a voice receives is a slot set up
   * for that voice's envelope, slots already taken are left alone, and the
   * tick timer is not touched.
   */
  function InitVoices(voices: seq<Voice>, timers: Timer.Timers, i: nat, n: nat): (r: (seq<Voice>, Timer.Timers))
    requires |voices| == MAX_NUM_VOICES && Timer.WellFormed(timers) && i <= n < MAX_NUM_VOICES
    ensures |r.0| == MAX_NUM_VOICES && Timer.WellFormed(r.1) && r.1.hw == timers.hw
    ensures forall k :: 0 <= k < MAX_NUM_VOICES && (k < i || k >= n) ==> r.0[k] == voices[k]
    ensures forall k :: i <= k < n ==> r.0[k] == ResetVoice(voices[k], r.0[k].timer)
    ensures forall k :: i <= k < n && r.0[k].timer.Some? ==>
      r.0[k].timer.value < Timer.MAX_TIMERS && EnvelopeSlot(r.1.pool[r.0[k].timer.value], k)
    ensures forall j :: 0 <= j < Timer.MAX_TIMERS && timers.pool[j].active ==> r.1.pool[j] == timers.pool[j]
    decreases n - i
  {
    if i == n then (voices, timers)
    else
      var (timers', slot) := Timer.Alloc(timers, Some(ENVELOPE_ISR_CB), i);
      var v := ResetVoice(voices[i], slot);
      InitVoices(voices[i := v], timers', i + 1, n)
  }

  /**
   * On a pool whose slots from `i` on are all free and whose earlier slots
   * are taken, voice k receives timer k, and slot k is set up for its
   * envelope; the other slots do not change.
   */
  lemma {:induction false} InitVoicesAllocatesInOrder(voices: seq<Voice>, timers: Timer.Timers, i: nat, n: nat)
    requires |voices| == MAX_NUM_VOICES && Timer.WellFormed(timers) && i <= n < MAX_NUM_VOICES
    requires forall k :: 0 <= k < i ==> timers.pool[k].active
    requires forall k :: i <= k < Timer.MAX_TIMERS ==> !timers.pool[k].active
    ensures var r := InitVoices(voices, timers, i, n);
      && (forall k :: i <= k < n ==> r.0[k].timer == Some(k))
      && (forall k :: i <= k < n ==>
            r.1.pool[k] == timers.pool[k].(active := true, running := false, cb := Some(ENVELOPE_ISR_CB), context := k))
      && (forall k :: 0 <= k < Timer.MAX_TIMERS && (k < i || k >= n) ==> r.1.pool[k] == timers.pool[k])
    decreases n - i
  {
    if i < n {
      var (timers', slot) := Timer.Alloc(timers, Some(ENVELOPE_ISR_CB), i);
      assert !timers.pool[i].active;
      assert slot.Some?;
      var v := ResetVoice(voices[i], slot);
      InitVoicesAllocatesInOrder(voices[i := v], timers', i + 1, n);
    }
  }

  /** `for (i = 0; i < 4 * num_voices; i++) sublime_write_reg(i * 4, 0)`. */
  function ResetWrites(n: nat): (w: seq<Write>)
    ensures |w| == 4 * n
    ensures forall k :: 0 <= k < |w| ==> w[k] == Write(4 * k, 0)
  {
    seq(4 * n, k requires 0 <= k < 4 * n => Write(4 * k, 0))
  }

  /** The reset writes clear every register of every voice in use. */
  lemma ResetCoversVoiceRegisters(n: nat)
    requires n < MAX_NUM_VOICES
    ensures forall v: nat, r: nat :: v < n && IsVoiceRegister(r) ==> Write(VoiceReg(v, r), 0) in ResetWrites(n)
  {
    var w := ResetWrites(n);
    forall v: nat, r: nat | v < n && IsVoiceRegister(r)
      ensures Write(VoiceReg(v, r), 0) in w
    {
      var q := if r == VOICE_OSC0_FREQ then 0 else if r == VOICE_OSC1_FREQ then 1 else if r == VOICE_CTRL then 2 else 3;
      var k := 4 * v + q;
      Bits.DivModUnique(v, MAX_NUM_VOICES, 0, v);
      assert VoiceReg(v, r) == 16 * v + r == 4 * k;
      assert w[k] == Write(VoiceReg(v, r), 0);
    }
  }

  /** `addr` is one of the four registers of one of the first `n` voices. */
  ghost predicate IsVoiceAddress(addr: nat, n: nat)
  {
    exists v: nat, r: nat :: v < n && IsVoiceRegister(r) && addr == VoiceReg(v, r)
  }

  /** The reset writes touch nothing but the registers of the voices in use. */
  lemma ResetOnlyVoiceRegisters(n: nat)
    requires n < MAX_NUM_VOICES
    ensures forall k :: 0 <= k < 4 * n ==> IsVoiceAddress(ResetWrites(n)[k].addr, n)
  {
    var w := ResetWrites(n);
    forall k | 0 <= k < 4 * n
      ensures IsVoiceAddress(w[k].addr, n)
    {
      var v, c := k / 4, k % 4;
      assert k == 4 * v + c && v < n;
      var r := 4 * c;
      assert IsVoiceRegister(r);
      assert w[k] == Write(4 * k, 0);
      Bits.DivModUnique(v, MAX_NUM_VOICES, 0, v);
      assert VoiceReg(v, r) == 16 * v + r == 4 * k;
    }
  }

  /** The state `sublime_init` builds, with the MIDI registrations and timers it sets up. */
  datatype Boot = Boot(synth: Synth, registry: Midi.Registry, timers: Timer.Timers, writes: seq<Write>)

  /**
   * `sublime_init`: the voice count is read from the configuration
   * register, the voices in use are reset, their registers cleared, the
   * voices synchronised, and the three MIDI callbacks registered on every
   * channel.
   */
  function Init(s: Synth, config: u32, reg: Midi.Registry, timers: Timer.Timers): (r: Boot)
    requires WellFormed(s) && Timer.WellFormed(timers)
    ensures WellFormed(r.synth) && r.synth.numVoices == VoiceCount(config) && r.synth.pitchwheel == s.pitchwheel
    ensures forall k :: 0 <= k < r.synth.numVoices ==> !r.synth.voices[k].active && r.synth.voices[k].osc0.enable && r.synth.voices[k].osc1.enable
    ensures forall k :: 0 <= k < r.synth.numVoices ==>
      var e := r.synth.voices[k].ampEnv;
      !e.gate && e.attack == ATTACK_US && e.decay == DECAY_US && e.sustain == SUSTAIN_LEVEL && e.release == RELEASE_US
    ensures r.writes == ResetWrites(VoiceCount(config)) + [Write(MAIN_CTRL, 1), Write(MAIN_CTRL, 0)]
    ensures r.registry.noteOn == Midi.Register(reg.noteOn, SYNTH_CONTEXT, Midi.ANY_CHANNEL, Some(NOTE_ON_CB)).0
    ensures r.registry.noteOff == Midi.Register(reg.noteOff, SYNTH_CONTEXT, Midi.ANY_CHANNEL, Some(NOTE_OFF_CB)).0
    ensures r.registry.pitchWheel == Midi.Register(reg.pitchWheel, SYNTH_CONTEXT, Midi.ANY_CHANNEL, Some(PITCHWHEEL_CB)).0
    // Each voice's envelope timer is a slot set up for it; taken slots and the tick timer are untouched.
    ensures Timer.WellFormed(r.timers) && r.timers.hw == timers.hw
    ensures forall k :: 0 <= k < r.synth.numVoices && r.synth.voices[k].timer.Some? ==>
      r.synth.voices[k].timer.value < Timer.MAX_TIMERS && EnvelopeSlot(r.timers.pool[r.synth.voices[k].timer.value], k)
    ensures forall j :: 0 <= j < Timer.MAX_TIMERS && timers.pool[j].active ==> r.timers.pool[j] == timers.pool[j]
  {
    var n := VoiceCount(config);
    var (voices, timers') := InitVoices(s.voices, timers, 0, n);
    var (reg1, _) := Midi.RegisterNoteOn(reg, SYNTH_CONTEXT, Midi.ANY_CHANNEL, Some(NOTE_ON_CB));
    var (reg2, _) := Midi.RegisterNoteOff(reg1, SYNTH_CONTEXT, Midi.ANY_CHANNEL, Some(NOTE_OFF_CB));
    var (reg3, _) := Midi.RegisterPitchWheel(reg2, SYNTH_CONTEXT, Midi.ANY_CHANNEL, Some(PITCHWHEEL_CB));
    Boot(Synth(n, voices, s.pitchwheel), reg3, timers', ResetWrites(n) + [Write(MAIN_CTRL, 1), Write(MAIN_CTRL, 0)])
  }

  /**
   * Started on a timer pool fresh from `timer_init`, voice k's envelope
   * gets timer k, set up with the envelope's callback and k as context.
   */
  lemma InitAllocatesTimerPerVoice(s: Synth, config: u32, reg: Midi.Registry, t: Timer.Timers)
    requires WellFormed(s) && Timer.WellFormed(t)
    ensures var r := Init(s, config, reg, Timer.Init(t));
      forall k :: 0 <= k < r.synth.numVoices ==>
        && r.synth.voices[k].timer == Some(k)
        && r.timers.pool[k] == t.pool[k].(active := true, running := false, cb := Some(ENVELOPE_ISR_CB), context := k)
  {
    InitVoicesAllocatesInOrder(s.voices, Timer.Init(t), 0, VoiceCount(config));
  }

  /**
   * After start-up on an empty registry, a note-on with nonzero velocity on
   * any channel reaches `sublime_note_on` once, with the synthesizer's
   * context, the key and the velocity.
   */
  lemma BootRoutesNoteOn(s: Synth, config: u32, timers: Timer.Timers, m: Midi.Message)
    requires WellFormed(s) && Timer.WellFormed(timers)
    requires Midi.MessageType(m.data0) == Midi.NOTE_ON && m.data2 != 0
    ensures Midi.HandleMsg(Init(s, config, Midi.EmptyRegistry, timers).registry, m) ==
      [Midi.NoteCall(Midi.NoteOnEvent, 0, NOTE_ON_CB, m.data1, m.data2, SYNTH_CONTEXT)]
  {
    var reg := Init(s, config, Midi.EmptyRegistry, timers).registry;
    Midi.NoteOnDispatch(reg, m);
    Midi.RegisteredCallbackRunsLast(Midi.NoteOnEvent, [], 0, SYNTH_CONTEXT, NOTE_ON_CB, 9, m.data1, m.data2);
  }

  /**
   * After start-up on an empty registry, a note-off, or a note-on with
   * velocity 0, reaches `sublime_note_off` once with the key.
   */
  lemma BootRoutesNoteOff(s: Synth, config: u32, timers: Timer.Timers, m: Midi.Message)
    requires WellFormed(s) && Timer.WellFormed(timers)
    requires Midi.MessageType(m.data0) == Midi.NOTE_OFF || (Midi.MessageType(m.data0) == Midi.NOTE_ON && m.data2 == 0)
    ensures Midi.HandleMsg(Init(s, config, Midi.EmptyRegistry, timers).registry, m) ==
      [Midi.NoteCall(Midi.NoteOffEvent, 0, NOTE_OFF_CB, m.data1, m.data2, SYNTH_CONTEXT)]
  {
    var reg := Init(s, config, Midi.EmptyRegistry, timers).registry;
    var chan := if Midi.MessageType(m.data0) == Midi.NOTE_ON then 8 else Midi.GetChan(m.data0);
    if Midi.MessageType(m.data0) == Midi.NOTE_ON {
      Midi.NoteOnVelocityZeroIsNoteOff(reg, m);
    }
    assert Midi.HandleMsg(reg, m) == Midi.NoteFanOut(Midi.NoteOffEvent, reg.noteOff, 0, chan, m.data1, m.data2);
    Midi.RegisteredCallbackRunsLast(Midi.NoteOffEvent, [], 0, SYNTH_CONTEXT, NOTE_OFF_CB, chan, m.data1, m.data2);
  }

  /**
   * After start-up on an empty registry, a pitch-wheel change on any
   * channel reaches `sublime_pitchwheel` once with the re-centred position.
   */
  lemma BootRoutesPitchWheel(s: Synth, config: u32, timers: Timer.Timers, m: Midi.Message)
    requires WellFormed(s) && Timer.WellFormed(timers)
    requires Midi.MessageType(m.data0) == Midi.PITCHWHEEL_CHANGE
    ensures Midi.HandleMsg(Init(s, config, Midi.EmptyRegistry, timers).registry, m) ==
      [Midi.PitchCall(0, PITCHWHEEL_CB, Midi.PitchValue(m.data2, m.data1))]
  {
    var table := Init(s, config, Midi.EmptyRegistry, timers).registry.pitchWheel;
    assert table == [Midi.Registration(Some(PITCHWHEEL_CB), Midi.ANY_CHANNEL, SYNTH_CONTEXT)];
    assert Midi.PitchFanOut(table, 1, Midi.GetChan(m.data0), Midi.PitchValue(m.data2, m.data1)) == [];
  }

  // ---------------------------------------------------------------------
  // The allocator invariant
  // ---------------------------------------------------------------------

  /**
   * Every envelope in use satisfies the envelope invariant, and a voice
   * that is not active is silent: its envelope is idle.
   */
  predicate Valid(s: Synth)
  {
    && WellFormed(s)
    && forall i :: 0 <= i < s.numVoices ==>
         Envelope.Valid(s.voices[i].ampEnv) && (!s.voices[i].active ==> s.voices[i].ampEnv.state == Envelope.Idle)
  }

  lemma ValidGateOffsDefined(s: Synth)
    requires Valid(s)
    ensures GateOffsDefined(s)
  {
  }

  /** A zero-initialised synthesizer is valid once `sublime_init` has run. */
  lemma InitValid(s: Synth, config: u32, reg: Midi.Registry, timers: Timer.Timers)
    requires WellFormed(s) && Timer.WellFormed(timers)
    requires forall k :: 0 <= k < MAX_NUM_VOICES ==> s.voices[k].ampEnv.state == Envelope.Idle && s.voices[k].ampEnv.output == 0
    ensures Valid(Init(s, config, reg, timers).synth)
  {
    var r := Init(s, config, reg, timers).synth;
    forall i | 0 <= i < r.numVoices
      ensures Envelope.Valid(r.voices[i].ampEnv) && r.voices[i].ampEnv.state == Envelope.Idle
    {
    }
  }

  /** A note-on never takes a voice whose envelope is still sounding. */
  lemma NoteOnTakesSilentVoice(s: Synth, key: Midi.DataByte, velocity: Midi.DataByte)
    requires Valid(s)
    ensures NoteOn(s, key, velocity).start.Some? ==>
      var v := NoteOn(s, key, velocity).start.value.voice;
      v == GetFreeVoice(s) && s.voices[v].ampEnv.state == Envelope.Idle
    ensures Valid(NoteOn(s, key, velocity).synth)
  {
    var r := NoteOn(s, key, velocity);
    var v := GetFreeVoice(s);
    if v != -1 {
      Envelope.GateOnPreservesValid(s.voices[v].ampEnv);
      assert forall i :: 0 <= i < s.numVoices && i != v ==> r.synth.voices[i] == s.voices[i];
    }
  }

  lemma NoteOffPreservesValid(s: Synth, key: Midi.DataByte, velocity: Midi.DataByte)
    requires Valid(s)
    ensures GateOffsDefined(s)
    ensures Valid(NoteOff(s, key, velocity).synth)
  {
    var r := NoteOff(s, key, velocity);
    var v := GetVoiceByNote(s, key);
    if v != -1 {
      Envelope.GateOffPreservesValid(s.voices[v].ampEnv);
      assert forall i :: 0 <= i < s.numVoices && i != v ==> r.synth.voices[i] == s.voices[i];
    }
  }

  lemma TaskPreservesValid(s: Synth, t: Pitch.Tables)
    requires Valid(s) && Pitch.WellSized(t) && CentsInRange(s)
    ensures Valid(Task(s, t).0)
  {
  }

  /**
   * The timer tick of voice `i`'s envelope, with the delay it starts the
   * voice's timer for.
   */
  function EnvelopeTick(s: Synth, i: nat): (r: Effect)
    requires Valid(s) && i < s.numVoices
    ensures Valid(r.synth) && r.synth.numVoices == s.numVoices
    ensures r.synth.voices == s.voices[i := s.voices[i].(ampEnv := r.synth.voices[i].ampEnv)]
    ensures !s.voices[i].active ==> r == Effect(s, None)
  {
    var e := s.voices[i].ampEnv;
    Envelope.TimerIsrPreservesValid(e);
    var t := Envelope.TimerIsr(e);
    var s' := s.(voices := s.voices[i := s.voices[i].(ampEnv := t.env)]);
    assert forall k :: 0 <= k < s.numVoices && k != i ==> s'.voices[k] == s.voices[k];
    Effect(s', if t.wait.Some? then Some(TimerStart(i, t.wait.value)) else None)
  }

  /**
   * A note-off finds the voice the matching note-on took, when no
   * lower voice already held that key.
   */
  lemma NoteOffFindsNoteOn(s: Synth, key: Midi.DataByte, velocity: Midi.DataByte)
    requires WellFormed(s) && GetFreeVoice(s) != -1
    requires forall i :: 0 <= i < GetFreeVoice(s) ==> !Holds(s.voices[i], key)
    ensures GetVoiceByNote(NoteOn(s, key, velocity).synth, key) == GetFreeVoice(s)
  {
    var v := GetFreeVoice(s);
    var s' := NoteOn(s, key, velocity).synth;
    assert Holds(s'.voices[v], key);
    assert forall i :: 0 <= i < v ==> s'.voices[i] == s.voices[i];
  }

  /** With every voice in use busy, a note-on changes nothing and starts no timer. */
  lemma NoteOnDropsWhenFull(s: Synth, key: Midi.DataByte, velocity: Midi.DataByte)
    requires WellFormed(s) && forall i :: 0 <= i < s.numVoices ==> s.voices[i].active
    ensures NoteOn(s, key, velocity) == Effect(s, None)
  {
  }
}

=== FILE: timer.dfy ===
/*
 * The software timer multiplexer (sw/timer.c): a pool of 128 timer slots
 * served by the single OpenRISC tick timer. The hardware is reduced to the
 * `ticktimer_running` flag and the period programmed into TTMR; the time
 * the counter has run since its last reset is a parameter of the
 * operations that read it.
 */
module Timer {
  import opened CInt
  import opened Wrappers
  import Bits

  const MAX_TIMERS: nat := 128
  /** `BOARD_CLK_FREQ / 1e6`: tick-timer counts per microsecond. */
  const CLK_PER_US: nat := 50
  /** The period field of the TTMR register (bits 0..27). */
  const TTMR_PERIOD: nat := 0x0FFF_FFFF
  /** `TMR_MAX_US`: the longest programmable period in whole microseconds. */
  const TMR_MAX_US: nat := TTMR_PERIOD / CLK_PER_US

  /** An opaque `isr_cb` function pointer. */
  type CallbackId = nat
  /** An opaque `private_data` pointer. */
  type Context = nat

  datatype Mode = OneShot | Continuous

  /** `struct timer`, with its ACTIVE and RUNNING flag bits as booleans. */
  datatype Slot = Slot(
    mode: Mode,
    timeUs: u32,
    startTimeUs: u32,
    active: bool,
    running: bool,
    cb: Option<CallbackId>,
    context: Context)

  /** `ticktimer_running` and the period field last written to TTMR (0 when disarmed). */
  datatype Hw = Hw(running: bool, periodTicks: nat)

  datatype Timers = Timers(pool: seq<Slot>, hw: Hw)

  predicate WellFormed(t: Timers)
  {
    |t.pool| == MAX_TIMERS
  }

  /** A slot the interrupt routine serves: both ACTIVE and RUNNING. */
  predicate Armed(s: Slot)
  {
    s.active && s.running
  }

  // ---------------------------------------------------------------------
  // Programming the tick timer
  // ---------------------------------------------------------------------

  /** The clamp of `timer_start_ticktimer`: the requested time, at most `TMR_MAX_US`. */
  function Clamp(us: u32): (r: nat)
    ensures r <= us && r <= TMR_MAX_US
    ensures r == us || r == TMR_MAX_US
  {
    if us > TMR_MAX_US then TMR_MAX_US else us
  }

  /** The TTMR period `timer_start_ticktimer(us)` programs. */
  function Ticks(us: u32): (ticks: nat)
    ensures ticks <= TTMR_PERIOD
    ensures ticks == Clamp(us) * CLK_PER_US
  {
    Clamp(us) * CLK_PER_US
  }

  /** `timer_get_ticktimer_period_us`: the period field of TTMR in whole microseconds. */
  function PeriodUs(ticks: nat): nat
  {
    Bits.And(ticks, TTMR_PERIOD) / CLK_PER_US
  }

  /** Reading the period back returns the clamped time that was programmed. */
  lemma PeriodRoundTrip(us: u32)
    ensures PeriodUs(Ticks(us)) == Clamp(us)
  {
    PeriodOfField(Ticks(us));
  }

  /** A period within the TTMR field reads back as its whole number of microseconds. */
  lemma PeriodOfField(ticks: nat)
    requires ticks <= TTMR_PERIOD
    ensures PeriodUs(ticks) == ticks / CLK_PER_US
    ensures PeriodUs(ticks) <= TMR_MAX_US
  {
    Pow2Of28();
    Bits.AndLowMask(ticks, 28);
    Bits.DivModUnique(ticks, TTMR_PERIOD + 1, 0, ticks);
  }

  lemma Pow2Of28()
    ensures Bits.Pow2(28) == TTMR_PERIOD + 1
  {
    assert Bits.Pow2(7) == 0x80;
    Bits.Pow2Add(7, 7);
    Bits.Pow2Add(14, 14);
  }

  // ---------------------------------------------------------------------
  // Allocation, start and initialisation
  // ---------------------------------------------------------------------

  /** The least index at or after `from` whose slot is not ACTIVE. */
  function FirstFree(pool: seq<Slot>, from: nat): (r: Option<nat>)
    requires from <= |pool|
    ensures r.None? <==> forall k :: from <= k < |pool| ==> pool[k].active
    ensures r.Some? ==> from <= r.value < |pool| && !pool[r.value].active
    ensures r.Some? ==> forall k :: from <= k < r.value ==> pool[k].active
    decreases |pool| - from
  {
    if from == |pool| then None
    else if !pool[from].active then Some(from)
    else FirstFree(pool, from + 1)
  }

  /**
   * `timer_alloc`: claims the first slot that is not ACTIVE, setting its
   * flags to exactly ACTIVE and storing the callback and its context; when
   * every slot is taken nothing changes and no timer is returned.
   */
  function Alloc(t: Timers, cb: Option<CallbackId>, context: Context): (r: (Timers, Option<nat>))
    requires WellFormed(t)
    ensures WellFormed(r.0) && r.0.hw == t.hw
    ensures r.1.None? <==> forall k :: 0 <= k < MAX_TIMERS ==> t.pool[k].active
    ensures r.1.None? ==> r.0 == t
    ensures r.1.Some? ==>
      && r.1.value < MAX_TIMERS
      && !t.pool[r.1.value].active
      && (forall k :: 0 <= k < r.1.value ==> t.pool[k].active)
      && r.0.pool == t.pool[r.1.value := t.pool[r.1.value].(active := true, running := false, cb := cb, context := context)]
  {
    match FirstFree(t.pool, 0)
    case None => (t, None)
    case Some(i) =>
      var s := t.pool[i].(active := true, running := false, cb := cb, context := context);
      (t.(pool := t.pool[i := s]), Some(i))
  }

  /**
   * `timer_start(timer, mode, d)` on slot `i`, with `elapsed` the time the
   * tick-timer counter shows. The mode argument is not used. With the tick
   * timer running the deadline is measured from the counter's last reset
   * (`d + elapsed`, wrapping at 32 bits) and the period is shortened only if
   * that deadline comes earlier; otherwise the counter restarts and the
   * period is `d`.
   */
  function Start(t: Timers, i: nat, mode: Mode, d: u32, elapsed: u32): (r: Timers)
    requires WellFormed(t) && i < MAX_TIMERS
    ensures WellFormed(r) && r.hw.running
    ensures forall k :: 0 <= k < MAX_TIMERS && k != i ==> r.pool[k] == t.pool[k]
    ensures r.pool[i] == t.pool[i].(timeUs := r.pool[i].timeUs, startTimeUs := d, running := true)
    ensures !t.hw.running ==> r.pool[i].timeUs == d && r.hw.periodTicks == Ticks(d)
    ensures t.hw.running ==> r.pool[i].timeUs == WrapU32(d + elapsed)
    ensures t.hw.running && r.pool[i].timeUs < PeriodUs(t.hw.periodTicks) ==> r.hw.periodTicks == Ticks(r.pool[i].timeUs)
    ensures t.hw.running && r.pool[i].timeUs >= PeriodUs(t.hw.periodTicks) ==> r.hw == t.hw
  {
    var s := t.pool[i].(timeUs := d, startTimeUs := d, running := true);
    if t.hw.running then
      var time := WrapU32(d + elapsed);
      var hw := if time < PeriodUs(t.hw.periodTicks) then Hw(true, Ticks(time)) else t.hw;
      Timers(t.pool[i := s.(timeUs := time)], hw)
    else
      Timers(t.pool[i := s], Hw(true, Ticks(d)))
  }

  /** `timer_init`: every slot's flags are cleared; nothing else changes. */
  function Init(t: Timers): (r: Timers)
    requires WellFormed(t)
    ensures WellFormed(r) && r.hw == t.hw
    ensures forall k :: 0 <= k < MAX_TIMERS ==> r.pool[k] == t.pool[k].(active := false, running := false)
  {
    Timers(seq(MAX_TIMERS, k requires 0 <= k < MAX_TIMERS => t.pool[k].(active := false, running := false)), t.hw)
  }

  // ---------------------------------------------------------------------
  // The tick-timer interrupt
  // ---------------------------------------------------------------------

  /**
   * `timer_do_timeout`'s bookkeeping: a continuous timer reloads its
   * start time, a one-shot timer stops.
   */
  function Expire(s: Slot): (r: Slot)
    ensures r.active == s.active && r.cb == s.cb && r.startTimeUs == s.startTimeUs
    ensures s.mode == OneShot ==> !r.running && r.timeUs == s.timeUs
    ensures s.mode == Continuous ==> r.running == s.running && r.timeUs == s.startTimeUs
  {
    match s.mode
    case Continuous => s.(timeUs := s.startTimeUs)
    case OneShot => s.(running := false)
  }

  /**
   * What a callback asks for when it runs during the interrupt: the
   * `timer_start` of its own slot for `delay` µs, made when the counter,
   * reset at the top of the interrupt, shows `counter` µs.
   */
  datatype Restart = Restart(delay: u32, counter: u32)

  /**
   * What the interrupt does to one slot, on its own: an armed slot loses
   * the elapsed time, saturating at 0, and at 0 it expires and its callback,
   * if it has one, may start it again. `running` is `ticktimer_running` as
   * that restart sees it: when set, the counter reading is added to the
   * delay, as in any start while the tick timer runs.
   */
  function Visit(s: Slot, elapsed: u32, action: Option<Restart>, running: bool): (r: Slot)
    ensures r.active == s.active && r.cb == s.cb && r.mode == s.mode && r.context == s.context
    // A slot that is not armed is skipped.
    ensures !Armed(s) ==> r == s
    // An armed slot not yet due just loses the elapsed time.
    ensures Armed(s) && elapsed < s.timeUs ==> r == s.(timeUs := s.timeUs - elapsed)
    // A due slot without a restart expires.
    ensures Armed(s) && s.timeUs <= elapsed && (s.cb.None? || action.None?) ==>
      r == Expire(s.(timeUs := 0))
    // A due slot whose callback restarts it is armed again with the delay as
    // its reload time; its deadline is the delay plus the counter reading,
    // wrapping at 32 bits, unless the tick timer was idle and the start
    // reset the counter.
    ensures Armed(s) && s.timeUs <= elapsed && s.cb.Some? && action.Some? ==>
      && Armed(r) && r.startTimeUs == action.value.delay
      && (running && action.value.delay + action.value.counter <= U32_MAX ==>
            r.timeUs == action.value.delay + action.value.counter)
      && (running && action.value.delay + action.value.counter > U32_MAX ==>
            r.timeUs == action.value.delay + action.value.counter - 0x1_0000_0000)
      && (!running ==> r.timeUs == action.value.delay)
  {
    if !Armed(s) then s
    else
      var s1 := s.(timeUs := if elapsed > s.timeUs then 0 else s.timeUs - elapsed);
      if s1.timeUs != 0 then s1
      else
        var s2 := Expire(s1);
        if s2.cb.Some? && action.Some? then
          var d := action.value.delay;
          s2.(timeUs := if running then WrapU32(d + action.value.counter) else d, startTimeUs := d, running := true)
        else s2
  }

  /** A slot whose callback runs during this interrupt. */
  predicate Fires(s: Slot, elapsed: u32)
  {
    Armed(s) && s.timeUs <= elapsed && s.cb.Some?
  }

  /**
   * While the tick timer runs, a restart whose delay plus counter reading
   * passes 32 bits wraps to a deadline shorter than the counter reading.
   */
  lemma RestartNearLimitWraps(s: Slot, elapsed: u32, d: u32, c: u32)
    requires Fires(s, elapsed) && d + c > U32_MAX
    ensures var r := Visit(s, elapsed, Some(Restart(d, c)), true);
      Armed(r) && r.timeUs == d + c - 0x1_0000_0000 && r.timeUs < c && r.startTimeUs == d
  {
  }

  /** A slot that fires and whose callback starts it again. */
  predicate Restarts(s: Slot, elapsed: u32, action: Option<Restart>)
  {
    Fires(s, elapsed) && action.Some?
  }

  /**
   * `ticktimer_running` as the restart of slot `k` sees it, in a scan that
   * began at slot `i`: set before the scan, or set by an earlier restart.
   */
  predicate RunningBefore(t: Timers, i: nat, k: nat, elapsed: u32, actions: seq<Option<Restart>>)
    requires WellFormed(t) && |actions| == MAX_TIMERS && k <= MAX_TIMERS
  {
    t.hw.running || exists j :: i <= j < k && Restarts(t.pool[j], elapsed, actions[j])
  }

  /** The state of the scan after some slots: the timers, the running minimum and its slot (-1 for none). */
  datatype Scan = Scan(t: Timers, min: nat, next: int, fired: seq<nat>)

  /**
   * `timer_do_timeout` on slot `i` during the interrupt. The callback's
   * only effect is the optional restart of its own slot, a `timer_start`
   * that sees TTMR cleared: its period reads 0 and is never shortened, and
   * the counter it adds has run since the reset at the top of the interrupt.
   */
  function Timeout(t: Timers, i: nat, action: Option<Restart>): (r: (Timers, bool))
    requires WellFormed(t) && i < MAX_TIMERS
    ensures WellFormed(r.0)
  {
    var s := Expire(t.pool[i]);
    var t1 := t.(pool := t.pool[i := s]);
    if s.cb.Some? && action.Some? then (Start(t1, i, s.mode, action.value.delay, action.value.counter), true)
    else (t1, s.cb.Some?)
  }

  /**
   * One armed slot's turn in the loop of `timer_isr`: the elapsed time is
   * taken off, saturating at 0, and at 0 the slot times out. Only that slot
   * changes, as `Visit` describes, and the flag that reports a callback run
   * is set exactly when the slot fires.
   */
  function Serve(t: Timers, i: nat, elapsed: u32, action: Option<Restart>): (r: (Timers, bool))
    requires WellFormed(t) && i < MAX_TIMERS && Armed(t.pool[i])
    ensures WellFormed(r.0)
    ensures r.0.pool[i] == Visit(t.pool[i], elapsed, action, t.hw.running)
    ensures forall k :: 0 <= k < MAX_TIMERS && k != i ==> r.0.pool[k] == t.pool[k]
    ensures r.0.hw.running == (t.hw.running || Restarts(t.pool[i], elapsed, action))
    ensures r.1 <==> Fires(t.pool[i], elapsed)
  {
    var s := t.pool[i];
    var s1 := s.(timeUs := if elapsed > s.timeUs then 0 else s.timeUs - elapsed);
    var t1 := t.(pool := t.pool[i := s1]);
    if s1.timeUs == 0 then Timeout(t1, i, action) else (t1, false)
  }

  /** The loop of `timer_isr` from slot `i` on, starting with minimum `min` at slot `next`. */
  function ScanFrom(t: Timers, i: nat, elapsed: u32, actions: seq<Option<Restart>>, min: nat, next: int): (r: Scan)
    requires WellFormed(t) && |actions| == MAX_TIMERS && i <= MAX_TIMERS && next < MAX_TIMERS
    ensures WellFormed(r.t) && r.next < MAX_TIMERS
    decreases MAX_TIMERS - i
  {
    if i == MAX_TIMERS then Scan(t, min, next, [])
    else if !Armed(t.pool[i]) then ScanFrom(t, i + 1, elapsed, actions, min, next)
    else
      var (t2, fired) := Serve(t, i, elapsed, actions[i]);
      var s2 := t2.pool[i];
      var better := s2.running && s2.timeUs < min;
      var rest := ScanFrom(t2, i + 1, elapsed, actions, if better then s2.timeUs else min, if better then i else next);
      rest.(fired := (if fired then [i] else []) + rest.fired)
  }

  /** The result of one interrupt: the timers and the slots whose callbacks ran, in order. */
  datatype IsrResult = IsrResult(t: Timers, fired: seq<nat>)

  /**
   * `timer_isr`, with the search for the smallest remaining time starting
   * from `sentinel`. The counter shows `elapsed`; `actions[k]` is what slot
   * k's callback asks for if it runs.
   */
  function IsrWith(t: Timers, elapsed: u32, actions: seq<Option<Restart>>, sentinel: nat): (r: IsrResult)
    requires WellFormed(t) && |actions| == MAX_TIMERS
    ensures WellFormed(r.t)
  {
    var sc := ScanFrom(t.(hw := t.hw.(periodTicks := 0)), 0, elapsed, actions, sentinel, -1);
    var hw := if sc.next < 0 then Hw(false, 0) else Hw(sc.t.hw.running, Ticks(sc.t.pool[sc.next].timeUs));
    IsrResult(Timers(sc.t.pool, hw), sc.fired)
  }

  /** `timer_isr` as written: the minimum search starts at `0xffffffff` and compares with `<`. */
  function IsrAsWritten(t: Timers, elapsed: u32, actions: seq<Option<Restart>>): (r: IsrResult)
    requires WellFormed(t) && |actions| == MAX_TIMERS
    ensures WellFormed(r.t)
  {
    IsrWith(t, elapsed, actions, U32_MAX)
  }

  /** `timer_isr` with the minimum search starting above every 32-bit time. */
  function Isr(t: Timers, elapsed: u32, actions: seq<Option<Restart>>): (r: IsrResult)
    requires WellFormed(t) && |actions| == MAX_TIMERS
    ensures WellFormed(r.t)
  {
    IsrWith(t, elapsed, actions, U32_MAX + 1)
  }

  // ---------------------------------------------------------------------
  // What the interrupt computes
  // ---------------------------------------------------------------------

  /**
   * The nested start of a callback leaves slot `i` as `Visit` describes it,
   * and marks the tick timer running exactly when it was, or the slot restarts.
   */
  lemma TimeoutSlot(t: Timers, i: nat, action: Option<Restart>)
    requires WellFormed(t) && i < MAX_TIMERS && Armed(t.pool[i]) && t.pool[i].timeUs == 0
    ensures Timeout(t, i, action).0.pool[i] == Visit(t.pool[i], 0, action, t.hw.running)
    ensures forall k :: 0 <= k < MAX_TIMERS && k != i ==> Timeout(t, i, action).0.pool[k] == t.pool[k]
    ensures Timeout(t, i, action).0.hw.running == (t.hw.running || (t.pool[i].cb.Some? && action.Some?))
    ensures Timeout(t, i, action).1 <==> t.pool[i].cb.Some?
  {
  }

  /**
   * The scan from slot `i` leaves the slots before `i` alone and turns every
   * later slot into its `Visit`, each restart seeing `ticktimer_running` as
   * set before the scan or by an earlier restart; it ends running exactly
   * when it began running or some slot restarted.
   */
  lemma {:induction false} ScanPool(t: Timers, i: nat, elapsed: u32, actions: seq<Option<Restart>>, min: nat, next: int)
    requires WellFormed(t) && |actions| == MAX_TIMERS && i <= MAX_TIMERS && next < MAX_TIMERS
    ensures var r := ScanFrom(t, i, elapsed, actions, min, next);
      && (forall k :: 0 <= k < i ==> r.t.pool[k] == t.pool[k])
      && (forall k :: i <= k < MAX_TIMERS ==>
            r.t.pool[k] == Visit(t.pool[k], elapsed, actions[k], RunningBefore(t, i, k, elapsed, actions)))
      && r.t.hw.running == RunningBefore(t, i, MAX_TIMERS, elapsed, actions)
    decreases MAX_TIMERS - i
  {
    if i < MAX_TIMERS {
      if !Armed(t.pool[i]) {
        RunningBeforeShift(t, t, i, elapsed, actions);
        ScanPool(t, i + 1, elapsed, actions, min, next);
      } else {
        var (t2, fired) := Serve(t, i, elapsed, actions[i]);
        var s2 := t2.pool[i];
        var better := s2.running && s2.timeUs < min;
        RunningBeforeShift(t, t2, i, elapsed, actions);
        ScanPool(t2, i + 1, elapsed, actions, if better then s2.timeUs else min, if better then i else next);
      }
    }
  }

  /** Serving slot `i` hands the running flag its restart leaves to the scan of the later slots. */
  lemma RunningBeforeShift(t: Timers, t2: Timers, i: nat, elapsed: u32, actions: seq<Option<Restart>>)
    requires WellFormed(t) && WellFormed(t2) && |actions| == MAX_TIMERS && i < MAX_TIMERS
    requires t2.hw.running == (t.hw.running || Restarts(t.pool[i], elapsed, actions[i]))
    requires forall j :: i < j < MAX_TIMERS ==> t2.pool[j] == t.pool[j]
    ensures RunningBefore(t, i, i, elapsed, actions) == t.hw.running
    ensures forall k :: i < k <= MAX_TIMERS ==>
      RunningBefore(t2, i + 1, k, elapsed, actions) == RunningBefore(t, i, k, elapsed, actions)
  {
  }

  /** The slots from `i` on that fire during the interrupt, in slot order. */
  function FiredFrom(pool: seq<Slot>, i: nat, elapsed: u32): (r: seq<nat>)
    requires |pool| == MAX_TIMERS && i <= MAX_TIMERS
    decreases MAX_TIMERS - i
  {
    if i == MAX_TIMERS then []
    else (if Fires(pool[i], elapsed) then [i] else []) + FiredFrom(pool, i + 1, elapsed)
  }

  /** `FiredFrom` only looks at the slots from `i` on. */
  lemma {:induction false} FiredFromFrame(p1: seq<Slot>, p2: seq<Slot>, i: nat, elapsed: u32)
    requires |p1| == |p2| == MAX_TIMERS && i <= MAX_TIMERS
    requires forall k :: i <= k < MAX_TIMERS ==> p1[k] == p2[k]
    ensures FiredFrom(p1, i, elapsed) == FiredFrom(p2, i, elapsed)
    decreases MAX_TIMERS - i
  {
    if i < MAX_TIMERS {
      FiredFromFrame(p1, p2, i + 1, elapsed);
    }
  }

  /** The callbacks the scan from slot `i` runs are exactly `FiredFrom` of the pool it starts with. */
  lemma {:induction false} ScanFiredIs(t: Timers, i: nat, elapsed: u32, actions: seq<Option<Restart>>, min: nat, next: int)
    requires WellFormed(t) && |actions| == MAX_TIMERS && i <= MAX_TIMERS && next < MAX_TIMERS
    ensures ScanFrom(t, i, elapsed, actions, min, next).fired == FiredFrom(t.pool, i, elapsed)
    decreases MAX_TIMERS - i
  {
    if i < MAX_TIMERS {
      if !Armed(t.pool[i]) {
        ScanFiredIs(t, i + 1, elapsed, actions, min, next);
      } else {
        var (t2, fired) := Serve(t, i, elapsed, actions[i]);
        var s2 := t2.pool[i];
        var better := s2.running && s2.timeUs < min;
        ScanFiredIs(t2, i + 1, elapsed, actions, if better then s2.timeUs else min, if better then i else next);
        FiredFromFrame(t2.pool, t.pool, i + 1, elapsed);
      }
    }
  }

  /** `FiredFrom` lists, in ascending order, exactly the firing slots from `i` on. */
  lemma {:induction false} FiredFromExact(pool: seq<Slot>, i: nat, elapsed: u32)
    requires |pool| == MAX_TIMERS && i <= MAX_TIMERS
    ensures forall j :: 0 <= j < |FiredFrom(pool, i, elapsed)| ==>
      i <= FiredFrom(pool, i, elapsed)[j] < MAX_TIMERS && Fires(pool[FiredFrom(pool, i, elapsed)[j]], elapsed)
    ensures forall k :: i <= k < MAX_TIMERS && Fires(pool[k], elapsed) ==> k in FiredFrom(pool, i, elapsed)
    ensures forall j, l :: 0 <= j < l < |FiredFrom(pool, i, elapsed)| ==>
      FiredFrom(pool, i, elapsed)[j] < FiredFrom(pool, i, elapsed)[l]
    decreases MAX_TIMERS - i
  {
    if i < MAX_TIMERS {
      var rest := FiredFrom(pool, i + 1, elapsed);
      FiredFromExact(pool, i + 1, elapsed);
      if Fires(pool[i], elapsed) {
        assert FiredFrom(pool, i, elapsed) == [i] + rest;
        FiredFromConsExact(i, rest, pool, elapsed);
      } else {
        assert FiredFrom(pool, i, elapsed) == rest;
      }
    }
  }

  /** Putting a firing slot `i` in front of an ascending list of firing slots above it keeps both properties. */
  lemma FiredFromConsExact(i: nat, rest: seq<nat>, pool: seq<Slot>, elapsed: u32)
    requires |pool| == MAX_TIMERS && i < MAX_TIMERS && Fires(pool[i], elapsed)
    requires forall j :: 0 <= j < |rest| ==> i + 1 <= rest[j] < MAX_TIMERS && Fires(pool[rest[j]], elapsed)
    requires forall j, l :: 0 <= j < l < |rest| ==> rest[j] < rest[l]
    ensures forall j :: 0 <= j < |[i] + rest| ==> i <= ([i] + rest)[j] < MAX_TIMERS && Fires(pool[([i] + rest)[j]], elapsed)
    ensures forall j, l :: 0 <= j < l < |[i] + rest| ==> ([i] + rest)[j] < ([i] + rest)[l]
  {
    var r := [i] + rest;
    forall j | 0 <= j < |r|
      ensures i <= r[j] < MAX_TIMERS && Fires(pool[r[j]], elapsed)
    {
      if j > 0 {
        assert r[j] == rest[j - 1];
      }
    }
    forall j, l | 0 <= j < l < |r|
      ensures r[j] < r[l]
    {
      assert r[l] == rest[l - 1];
      if j > 0 {
        assert r[j] == rest[j - 1];
      }
    }
  }

  /**
   * The scan from slot `i` reports, in slot order, exactly the later slots
   * whose callbacks ran.
   */
  lemma ScanFired(t: Timers, i: nat, elapsed: u32, actions: seq<Option<Restart>>, min: nat, next: int)
    requires WellFormed(t) && |actions| == MAX_TIMERS && i <= MAX_TIMERS && next < MAX_TIMERS
    ensures var r := ScanFrom(t, i, elapsed, actions, min, next);
      && (forall j :: 0 <= j < |r.fired| ==> i <= r.fired[j] < MAX_TIMERS && Fires(t.pool[r.fired[j]], elapsed))
      && (forall k :: i <= k < MAX_TIMERS && Fires(t.pool[k], elapsed) ==> k in r.fired)
      && (forall j, l :: 0 <= j < l < |r.fired| ==> r.fired[j] < r.fired[l])
  {
    ScanFiredIs(t, i, elapsed, actions, min, next);
    FiredFromExact(t.pool, i, elapsed);
  }

  /**
   * The scan invariant of the minimum search started from `sentinel`:
   * `next` is -1 while the running minimum is still the sentinel, and
   * otherwise names an armed slot holding that minimum, which is below the
   * sentinel; no armed slot so
   * far is below the running minimum.
   */
  predicate MinSoFar(pool: seq<Slot>, i: nat, min: nat, next: int, sentinel: nat)
    requires |pool| == MAX_TIMERS && i <= MAX_TIMERS
  {
    && (next < 0 ==> min == sentinel)
    && (next >= 0 ==> next < i && Armed(pool[next]) && pool[next].timeUs == min < sentinel)
    && forall k :: 0 <= k < i && Armed(pool[k]) ==> min <= pool[k].timeUs
  }

  lemma {:induction false} ScanMinimum(t: Timers, i: nat, elapsed: u32, actions: seq<Option<Restart>>, min: nat, next: int, sentinel: nat)
    requires WellFormed(t) && |actions| == MAX_TIMERS && i <= MAX_TIMERS && next < MAX_TIMERS
    requires MinSoFar(t.pool, i, min, next, sentinel)
    ensures var r := ScanFrom(t, i, elapsed, actions, min, next);
      MinSoFar(r.t.pool, MAX_TIMERS, r.min, r.next, sentinel)
    decreases MAX_TIMERS - i
  {
    if i < MAX_TIMERS {
      if !Armed(t.pool[i]) {
        ScanMinimum(t, i + 1, elapsed, actions, min, next, sentinel);
      } else {
        var (t2, fired) := Serve(t, i, elapsed, actions[i]);
        var s2 := t2.pool[i];
        assert Armed(s2) <==> s2.running;
        var better := s2.running && s2.timeUs < min;
        var min', next' := if better then s2.timeUs else min, if better then i else next;
        assert MinSoFar(t2.pool, i + 1, min', next', sentinel);
        ScanMinimum(t2, i + 1, elapsed, actions, min', next', sentinel);
      }
    }
  }

  /**
   * After an interrupt whose search starts above every 32-bit time, the
   * tick timer is programmed for the least remaining time of the slots
   * still armed, counting slots whose callbacks started them again; with
   * no slot armed it is disarmed and marked idle.
   */
  lemma IsrProgramsMinimum(t: Timers, elapsed: u32, actions: seq<Option<Restart>>)
    requires WellFormed(t) && |actions| == MAX_TIMERS
    ensures var r := Isr(t, elapsed, actions).t;
      && ((forall k :: 0 <= k < MAX_TIMERS ==> !Armed(r.pool[k])) ==> r.hw == Hw(false, 0))
      && (forall k :: 0 <= k < MAX_TIMERS && Armed(r.pool[k]) ==>
            exists j :: 0 <= j < MAX_TIMERS && Armed(r.pool[j]) && r.pool[j].timeUs <= r.pool[k].timeUs &&
                        r.hw.periodTicks == Ticks(r.pool[j].timeUs))
  {
    var t0 := t.(hw := t.hw.(periodTicks := 0));
    ScanMinimum(t0, 0, elapsed, actions, U32_MAX + 1, -1, U32_MAX + 1);
  }

  /**
   * The interrupt as written, searching from `0xffffffff` with `<`: a slot
   * left armed below `0xffffffff` makes it program the least remaining
   * time, but when every armed slot has exactly `0xffffffff` left the tick
   * timer is disarmed and marked idle.
   */
  lemma IsrAsWrittenProgramsMinimum(t: Timers, elapsed: u32, actions: seq<Option<Restart>>)
    requires WellFormed(t) && |actions| == MAX_TIMERS
    ensures var r := IsrAsWritten(t, elapsed, actions).t;
      && ((forall k :: 0 <= k < MAX_TIMERS && Armed(r.pool[k]) ==> r.pool[k].timeUs == U32_MAX) ==> r.hw == Hw(false, 0))
      && (forall k :: 0 <= k < MAX_TIMERS && Armed(r.pool[k]) && r.pool[k].timeUs < U32_MAX ==>
            exists j :: 0 <= j < MAX_TIMERS && Armed(r.pool[j]) && r.pool[j].timeUs <= r.pool[k].timeUs &&
                        r.hw.periodTicks == Ticks(r.pool[j].timeUs))
  {
    var t0 := t.(hw := t.hw.(periodTicks := 0));
    ScanMinimum(t0, 0, elapsed, actions, U32_MAX, -1, U32_MAX);
  }

  /**
   * The interrupt's effect on the pool is the per-slot `Visit`, and the
   * callbacks that run are those of the expiring slots, in slot order,
   * whatever value the minimum search starts from. When the tick timer was
   * marked running, as it is whenever a slot is armed, every restart adds
   * its counter reading.
   */
  lemma IsrVisitsEachSlot(t: Timers, elapsed: u32, actions: seq<Option<Restart>>, sentinel: nat)
    requires WellFormed(t) && |actions| == MAX_TIMERS
    ensures var r := IsrWith(t, elapsed, actions, sentinel);
      && (forall k :: 0 <= k < MAX_TIMERS ==>
            r.t.pool[k] == Visit(t.pool[k], elapsed, actions[k], RunningBefore(t, 0, k, elapsed, actions)))
      && (t.hw.running ==> forall k :: 0 <= k < MAX_TIMERS ==> r.t.pool[k] == Visit(t.pool[k], elapsed, actions[k], true))
      && (forall k :: 0 <= k < MAX_TIMERS ==> (k in r.fired <==> Fires(t.pool[k], elapsed)))
      && (forall j, l :: 0 <= j < l < |r.fired| ==> r.fired[j] < r.fired[l])
  {
    ScanPool(t.(hw := t.hw.(periodTicks := 0)), 0, elapsed, actions, sentinel, -1);
    ScanFired(t.(hw := t.hw.(periodTicks := 0)), 0, elapsed, actions, sentinel, -1);
  }

  /**
   * Starting the search at `0xffffffff` or just above it takes the same
   * decisions, as long as no slot still armed after its visit has exactly
   * `0xffffffff` left.
   */
  lemma {:induction false} ScanSentinels(t: Timers, i: nat, elapsed: u32, actions: seq<Option<Restart>>, min1: nat, min2: nat, next: int)
    requires WellFormed(t) && |actions| == MAX_TIMERS && i <= MAX_TIMERS && next < MAX_TIMERS
    requires next >= 0 ==> min1 == min2
    requires next < 0 ==> min1 == U32_MAX && min2 == U32_MAX + 1
    requires forall k :: i <= k < MAX_TIMERS ==>
      var v := Visit(t.pool[k], elapsed, actions[k], RunningBefore(t, i, k, elapsed, actions));
      !(Armed(v) && v.timeUs == U32_MAX)
    ensures var r1, r2 := ScanFrom(t, i, elapsed, actions, min1, next), ScanFrom(t, i, elapsed, actions, min2, next);
      r1.t == r2.t && r1.fired == r2.fired && r1.next == r2.next
    decreases MAX_TIMERS - i
  {
    if i < MAX_TIMERS {
      if !Armed(t.pool[i]) {
        RunningBeforeShift(t, t, i, elapsed, actions);
        ScanSentinels(t, i + 1, elapsed, actions, min1, min2, next);
      } else {
        var (t2, fired) := Serve(t, i, elapsed, actions[i]);
        var s2 := t2.pool[i];
        RunningBeforeShift(t, t2, i, elapsed, actions);
        assert s2.running ==> Armed(s2);
        var better := s2.running && s2.timeUs < min1;
        assert better == (s2.running && s2.timeUs < min2);
        ScanSentinels(t2, i + 1, elapsed, actions, if better then s2.timeUs else min1,
                      if better then s2.timeUs else min2, if better then i else next);
      }
    }
  }

  /**
   * The interrupt as written agrees with the corrected one on every input
   * where no slot is left armed with exactly `0xffffffff` to go.
   */
  lemma IsrAsWrittenAgrees(t: Timers, elapsed: u32, actions: seq<Option<Restart>>)
    requires WellFormed(t) && |actions| == MAX_TIMERS
    requires forall k :: 0 <= k < MAX_TIMERS ==>
      !(Armed(Isr(t, elapsed, actions).t.pool[k]) && Isr(t, elapsed, actions).t.pool[k].timeUs == U32_MAX)
    ensures IsrAsWritten(t, elapsed, actions) == Isr(t, elapsed, actions)
  {
    var t0 := t.(hw := t.hw.(periodTicks := 0));
    var after := Isr(t, elapsed, actions).t.pool;
    IsrVisitsEachSlot(t, elapsed, actions, U32_MAX + 1);
    assert forall k :: 0 <= k < MAX_TIMERS ==>
      after[k] == Visit(t0.pool[k], elapsed, actions[k], RunningBefore(t0, 0, k, elapsed, actions));
    ScanSentinels(t0, 0, elapsed, actions, U32_MAX, U32_MAX + 1, -1);
  }

  // ---------------------------------------------------------------------
  // The multiplexing invariant
  // ---------------------------------------------------------------------

  /**
   * The tick timer never fires later than an armed slot is due: when any
   * slot is armed the tick timer is running, with a period within the TTMR
   * field that is no longer than any armed slot's remaining time.
   */
  predicate Inv(t: Timers)
  {
    && WellFormed(t)
    && t.hw.periodTicks <= TTMR_PERIOD
    && forall k :: 0 <= k < MAX_TIMERS && Armed(t.pool[k]) ==>
         t.hw.running && PeriodUs(t.hw.periodTicks) <= t.pool[k].timeUs
  }

  lemma InitEstablishesInv(t: Timers)
    requires WellFormed(t) && t.hw.periodTicks <= TTMR_PERIOD
    ensures Inv(Init(t))
  {
  }

  lemma AllocPreservesInv(t: Timers, cb: Option<CallbackId>, context: Context)
    requires Inv(t)
    ensures Inv(Alloc(t, cb, context).0)
  {
    var r := Alloc(t, cb, context);
    if r.1.Some? {
      assert forall k :: 0 <= k < MAX_TIMERS && k != r.1.value ==> r.0.pool[k] == t.pool[k];
    }
  }

  lemma StartPreservesInv(t: Timers, i: nat, mode: Mode, d: u32, elapsed: u32)
    requires Inv(t) && i < MAX_TIMERS
    ensures Inv(Start(t, i, mode, d, elapsed))
  {
    var r := Start(t, i, mode, d, elapsed);
    PeriodOfField(t.hw.periodTicks);
    PeriodRoundTrip(r.pool[i].timeUs);
    PeriodRoundTrip(d);
  }

  /** A running tick timer programmed for the least armed remaining time satisfies the invariant. */
  lemma ProgrammedForLeast(pool: seq<Slot>, hw: Hw, n: nat)
    requires |pool| == MAX_TIMERS && n < MAX_TIMERS && Armed(pool[n]) && hw == Hw(true, Ticks(pool[n].timeUs))
    requires forall k :: 0 <= k < MAX_TIMERS && Armed(pool[k]) ==> pool[n].timeUs <= pool[k].timeUs
    ensures Inv(Timers(pool, hw))
  {
    PeriodRoundTrip(pool[n].timeUs);
  }

  /**
   * What the corrected scan leaves for the tick timer: either a running
   * timer and an armed slot holding the least armed time, or no armed slot.
   */
  lemma ScanOutcome(t: Timers, elapsed: u32, actions: seq<Option<Restart>>)
    requires Inv(t) && |actions| == MAX_TIMERS
    ensures var sc := ScanFrom(t.(hw := t.hw.(periodTicks := 0)), 0, elapsed, actions, U32_MAX + 1, -1);
      && (sc.next >= 0 ==>
            && sc.t.hw.running && Armed(sc.t.pool[sc.next])
            && forall k :: 0 <= k < MAX_TIMERS && Armed(sc.t.pool[k]) ==> sc.t.pool[sc.next].timeUs <= sc.t.pool[k].timeUs)
      && (sc.next < 0 ==> forall k :: 0 <= k < MAX_TIMERS ==> !Armed(sc.t.pool[k]))
  {
    var t0 := t.(hw := t.hw.(periodTicks := 0));
    var sc := ScanFrom(t0, 0, elapsed, actions, U32_MAX + 1, -1);
    ScanMinimum(t0, 0, elapsed, actions, U32_MAX + 1, -1, U32_MAX + 1);
    if sc.next >= 0 {
      // An armed slot after the scan was armed before it: the tick timer was running.
      ScanPool(t0, 0, elapsed, actions, U32_MAX + 1, -1);
      assert Armed(t.pool[sc.next]);
    }
  }

  lemma IsrPreservesInv(t: Timers, elapsed: u32, actions: seq<Option<Restart>>)
    requires Inv(t) && |actions| == MAX_TIMERS
    ensures Inv(Isr(t, elapsed, actions).t)
  {
    var sc := ScanFrom(t.(hw := t.hw.(periodTicks := 0)), 0, elapsed, actions, U32_MAX + 1, -1);
    ScanOutcome(t, elapsed, actions);
    var r := Isr(t, elapsed, actions).t;
    if sc.next >= 0 {
      ProgrammedForLeast(r.pool, r.hw, sc.next);
    }
  }

  // ---------------------------------------------------------------------
  // The minimum search as written
  // ---------------------------------------------------------------------

  /** A slot `timer_init` leaves free. */
  const FreeSlot := Slot(OneShot, 0, 0, false, false, None, 0)

  /** With no armed slot left from `i` on, the scan changes nothing more. */
  lemma {:induction false} ScanPastIdle(t: Timers, i: nat, elapsed: u32, actions: seq<Option<Restart>>, min: nat, next: int)
    requires WellFormed(t) && |actions| == MAX_TIMERS && i <= MAX_TIMERS && next < MAX_TIMERS
    requires forall k :: i <= k < MAX_TIMERS ==> !Armed(t.pool[k])
    ensures ScanFrom(t, i, elapsed, actions, min, next) == Scan(t, min, next, [])
    decreases MAX_TIMERS - i
  {
    if i < MAX_TIMERS {
      ScanPastIdle(t, i + 1, elapsed, actions, min, next);
    }
  }

  /** A single armed one-shot timer, due in 5 microseconds. */
  function LoneRestart(): (t: Timers)
    ensures WellFormed(t)
  {
    Timers([Slot(OneShot, 5, 5, true, true, Some(0), 0)] + seq(MAX_TIMERS - 1, _ => FreeSlot), Hw(true, Ticks(5)))
  }

  /**
   * Its callback starts it again, when the counter shows `c` µs, for
   * `0xffffffff - c` µs: the deadline lands exactly on `0xffffffff`, the
   * initial minimum, so the comparison `time_us < min` never selects it.
   */
  function LoneRestartActions(c: u32): (a: seq<Option<Restart>>)
    ensures |a| == MAX_TIMERS
  {
    [Some(Restart(U32_MAX - c, c))] + seq(MAX_TIMERS - 1, _ => None)
  }

  /** The first step of the scan of `LoneRestart` after 5 microseconds, for any starting minimum. */
  lemma LoneRestartScan(c: u32, sentinel: nat)
    ensures var t := LoneRestart();
      var sc := ScanFrom(t.(hw := t.hw.(periodTicks := 0)), 0, 5, LoneRestartActions(c), sentinel, -1);
      && sc.t.pool[0] == Slot(OneShot, U32_MAX, U32_MAX - c, true, true, Some(0), 0)
      && sc.t.hw.running
      && (sentinel > U32_MAX ==> sc.next == 0)
      && (sentinel <= U32_MAX ==> sc.next == -1)
  {
    var t := LoneRestart();
    var t0 := t.(hw := t.hw.(periodTicks := 0));
    var actions := LoneRestartActions(c);
    var (t2, fired) := Serve(t0, 0, 5, actions[0]);
    assert t2.pool[0] == Slot(OneShot, U32_MAX, U32_MAX - c, true, true, Some(0), 0);
    assert forall k :: 1 <= k < MAX_TIMERS ==> t2.pool[k] == t0.pool[k] == FreeSlot;
    var better := t2.pool[0].running && t2.pool[0].timeUs < sentinel;
    ScanPastIdle(t2, 1, 5, actions, if better then U32_MAX else sentinel, if better then 0 else -1);
  }

  /**
   * As written, whatever the counter shows at the restart, the interrupt
   * disarms the tick timer and clears `ticktimer_running` although slot 0 is
   * armed again, so the timer invariant breaks and that slot never expires
   * until some other timer is started.
   */
  lemma IsrAsWrittenDropsLongestRestart(c: u32)
    ensures Inv(LoneRestart())
    ensures var r := IsrAsWritten(LoneRestart(), 5, LoneRestartActions(c)).t;
      Armed(r.pool[0]) && r.hw == Hw(false, 0) && !Inv(r)
  {
    LoneRestartScan(c, U32_MAX);
    LoneRestartValid();
  }

  /** Before the interrupt, the lone restarting timer satisfies the timer invariant. */
  lemma LoneRestartValid()
    ensures Inv(LoneRestart())
  {
    PeriodRoundTrip(5);
    assert forall k :: 1 <= k < MAX_TIMERS ==> LoneRestart().pool[k] == FreeSlot;
  }

  /** With the search starting above every 32-bit time, the same interrupt keeps the tick timer armed at its longest period. */
  lemma IsrKeepsLongestRestart(c: u32)
    ensures var r := Isr(LoneRestart(), 5, LoneRestartActions(c)).t;
      Armed(r.pool[0]) && r.hw == Hw(true, Ticks(U32_MAX)) && Inv(r)
  {
    var t, actions := LoneRestart(), LoneRestartActions(c);
    LoneRestartScan(c, U32_MAX + 1);
    LoneRestartValid();
    IsrPreservesInv(t, 5, actions);
  }
}
